=== FILE: README.md ===
# Inelegant test helpers, modelled in Dafny

Inelegant is a set of helpers for Python tests. This project models the
sequential ones and proves what their code and docstrings promise:

- `temp_key(d, key, value)`, from `inelegant/dict.py`. It sets `d[key]` for the
  length of a `with` block. Afterwards it restores the old value, or deletes
  the key if it was absent. Modelled in `dict.dfy`, module `TempKey`.
- `Toggle`, from `inelegant/toggle.py`. It is a flag with `enable`, `disable`
  and a `with` form that switches it on. It has one slot for the value to go
  back to. Modelled in `toggle.dfy`, module `Toggles`.
- `TemporaryAttributeReplacer` and `temp_attr`, from `inelegant/object.py`.
  They replace one attribute of an object for a `with` block, or for every
  call of a decorated function. Modelled in `object.dfy`, module
  `Attributes`.
- Module adoption, from `ugly/module/module.py`. This covers `adopt`,
  `get_adoptable_value`, `get_adoptable_attrs`, `is_adoptable` and the message
  of `AdoptException`. Modelled in `adopt.dfy`, module `Adoption`. The
  docstring examples are in `adopt_doctests.dfy`.
- `dedent`, from `ugly/module/module.py`. It drops one leading newline, then
  applies the standard library's `textwrap.dedent`. Modelled in `dedent.dfy`,
  module `Dedenting`, on top of `text.dfy`, module `Text`, which models
  `split('\n')` and `'\n'.join`. `DedentLines` is an internal helper of
  `TextwrapDedent`: it maps `DedentLine` over the lines. The docstring
  example is in `dedent_doctests.dfy`.

Shared vocabulary lives in `py.dfy`, module `Py`:

- `Option` stands for `None`/a value and for a missing dict slot; `Lookup`
  reads a map slot as an `Option`.
- `Exc` lists the exceptions the modelled code raises.
- `Outcome`, `Step` and `Trace` describe how a block of code ends.
- `Finally` models `try: ... finally: ...`. The cleanup's own exception
  wins; otherwise the body's outcome goes through.

Python mutation becomes state passing:

- A `with` body is a function from the state it starts in to a `Step`: the
  state it leaves and whether it returned or raised.
- `Run` gives a `Trace`: the state the body saw, the state after
  `__exit__`, and the statement's outcome.
- Python objects in the adoption model live in a heap (`map<Id, Obj>`). This
  keeps aliasing between classes, functions and methods: a class reached as
  another class's attribute is the same object. Every other object carries a
  `__module__` of its own; the Left out section says what that leaves out
  for instances.
- A method object's `__module__` is read through to its function (`im_func`),
  as in Python 2.
- Internal helpers without rows of their own:
  - `Adoption.ModuleOf` is the read of `__module__` (module.py:248, 318),
    including the read-through of a method;
  - `Adoption.AdoptableAttr` is the filter condition of `get_adoptable_attrs`
    (module.py:212);
  - `Dedenting.NextMargin` is one whole step of `textwrap.dedent`'s margin
    loop.

  Each one is used in the contracts of the members that have rows:
  `IsAdoptable`, `Complaint`, `Filtered`, `AdoptAttr` and `Margin`.

## Model

| member | source | states |
|---|---|---|
| Py.Finally | inelegant/dict.py:31-37 | `try: ... finally: ...`: the cleanup runs on the state the body left and decides the final state. If the cleanup returns, the body's outcome goes through; if it raises, its exception replaces the body's. |
| TempKey.Enter | inelegant/dict.py:24-29 | It remembers whether the key existed and, if so, its value. Afterwards the key maps to the new value and every other key is unchanged. |
| TempKey.Exit | inelegant/dict.py:33-37 | If the key existed, it maps to the saved value again. If not, the key is deleted. `KeyError` is raised, with the dict unchanged, exactly when a key that was absent on entry is already gone. No other key is touched. |
| TempKey.Run | inelegant/dict.py:22-37 | The body sees `value` under the key and the rest of the dict unchanged. On every way out, including a raise, the key is restored or removed. Other keys are as the body left them. The body's outcome goes through, except for the `KeyError` when both sides dropped the key. |
| TempKey.EnterExitRoundTrip | inelegant/dict.py:24-37 | Exit straight after enter gives back exactly the dict of entry, whether or not the key existed. |
| TempKey.RunIsInvisible | inelegant/dict.py:22-37 | If the body leaves the dict alone, the dict after the statement equals the dict before it. The outcome is the body's outcome on the dict with the key set. |
| Toggles.New | inelegant/toggle.py:22-24 | A fresh toggle is disabled, and its slot holds `None`. |
| Toggles.Enable | inelegant/toggle.py:26-27 | The toggle is enabled; the saved slot is untouched. |
| Toggles.Disable | inelegant/toggle.py:29-30 | The toggle is disabled; the saved slot is untouched. |
| Toggles.Enter | inelegant/toggle.py:32-34 | `__enter__` saves the current state and leaves the toggle enabled. |
| Toggles.Exit | inelegant/toggle.py:36-38 | `__exit__` disables the toggle when the saved value is false or `None`. Otherwise it changes nothing. The slot is kept. |
| Toggles.Run | inelegant/toggle.py:32-38 | The body sees an enabled toggle with the old state saved. The body's outcome goes through, and `__exit__` runs on the state the body left. |
| Toggles.SwitchingIsIdempotent | inelegant/toggle.py:26-30 | Enabling twice is enabling once, and likewise for disabling. |
| Toggles.ExitNeverEnables | inelegant/toggle.py:36-38 | `__exit__` never turns a toggle on. |
| Toggles.EnterExitRestores | inelegant/toggle.py:32-38 | Enter then exit gives back the enabled state from before enter, from either state. |
| Toggles.RunRestores | inelegant/toggle.py:32-38 | If the body does not touch the toggle, the toggle ends as enabled as it began. |
| Toggles.NestedScopesLeaveEnabled | inelegant/toggle.py:32-38 | With the single slot, enter, enter, exit, exit leaves the toggle enabled. A fresh toggle does not come back to its initial state. |
| Attributes.TempAttr | inelegant/object.py:20-21 | The factory returns a replacer for the given attribute and value, with nothing saved yet. |
| Attributes.Enter | inelegant/object.py:78-82 | If the attribute is missing, `AttributeError` is raised and nothing is written. Otherwise the old value is saved, the attribute gets the replacement, and the replacement is returned. No other attribute changes. |
| Attributes.Exit | inelegant/object.py:84-85 | The attribute gets back the value read at enter; no other attribute changes. |
| Attributes.Run | inelegant/object.py:78-85 | If enter fails, the body does not run and the object is unchanged. Otherwise the body sees the replacement, the attribute is restored on every way out, and the body's outcome goes through. Other attributes are as the body left them. |
| Attributes.Decorate | inelegant/object.py:87-96 | The decorated function raises `AttributeError` and changes nothing when the object lacks the attribute. Otherwise it returns or raises what `f` does on the object with the attribute replaced, and afterwards the attribute holds its value from before the call. |
| Attributes.DecoratedCall | inelegant/object.py:87-96 | A call to the decorated function returns or raises what the original returns or raises on the object with the attribute replaced. Afterwards the attribute holds its original value, and every other attribute is as `f` left it. |
| Attributes.RunIsInvisible | inelegant/object.py:78-85 | If the body leaves the object alone, the object after the statement equals the object before it, for an object whose attributes are its own (one map read and written alike). |
| Attributes.ReenteringLosesOriginal | inelegant/object.py:78-85 | The replacer has one slot. Entering it twice and exiting twice leaves the replacement in place, not the original. |
| Adoption.Unwrap | ugly/module/module.py:180-183 | `get_adoptable_value` returns the function of a method and any other object itself. The result is never a method. |
| Adoption.ModuleRewritable | ugly/module/module.py:254-269 | The probe `obj.__module__ = obj.__module__` succeeds only when reading `__module__` succeeds. It never succeeds on a method object. |
| Adoption.IsAdoptable | ugly/module/module.py:245-252 | An object is adoptable exactly when its unwrapped object has a `__module__` and that attribute can be assigned. |
| Adoption.Filtered | ugly/module/module.py:209-213 | The filter of `get_adoptable_attrs` over a run of attributes: it keeps only attributes that are adoptable and share the class's `__module__`, keeps every such one, and never grows the run. |
| Adoption.AdoptableAttrs | ugly/module/module.py:208-213 | `get_adoptable_attrs` yields attributes of the class that are adoptable and share the class's `__module__`. Every such attribute is yielded. |
| Adoption.Unadoptable | ugly/module/module.py:146 | It holds only entities that are not adoptable, and every such entity. It is empty exactly when all are adoptable. |
| Adoption.UnadoptableAppend | ugly/module/module.py:146 | The comprehension over two runs of entities is the two comprehensions one after the other. With the contract on a single entity, this fixes the order and the number of times each refused entity appears. |
| Adoption.FilteredAppend | ugly/module/module.py:208-213 | Filtering two runs of attributes is filtering each run, one after the other. So the filter keeps `dir` order and repeats. |
| Adoption.Complaint | ugly/module/module.py:318-325 | An object gets a line exactly when the `__module__` probe fails on it. Without a `__module__`, the line is its `repr` followed by ` has no __module__ attribute.`. With a `__module__` that cannot be assigned, it is the `repr` followed by ` __module__ attribute is ready-only.`. For a non-method object, it gets a line exactly when it is not adoptable. |
| Adoption.Complaints | ugly/module/module.py:316-326 | The lines are at most one per object. There are none exactly when no object has a complaint. When every object has one, line `i` is the complaint of object `i`. |
| Adoption.ComplaintsAppend | ugly/module/module.py:317-325 | The lines for two runs of objects are the lines of the first run, then those of the second. So lines keep the objects' order, whichever objects have none. |
| Adoption.Join | ugly/module/module.py:327-328 | Joining no parts gives the empty string and one part gives that part. Otherwise the result starts with the first part. |
| Adoption.JoinAppend | ugly/module/module.py:327-328 | Joining two non-empty runs of parts is joining each, with the separator between them. |
| Adoption.AdoptError | ugly/module/module.py:315-330 | The exception has no argument when no object has a complaint. Otherwise it has one argument: the complaint lines joined by a newline and four spaces. |
| Adoption.UnadoptableHasComplaint | ugly/module/module.py:318-325 | Every object `is_adoptable` refuses gets a line in the message: either it has no `__module__`, or the attribute is read-only. |
| Adoption.RefusalMessage | ugly/module/module.py:146-148 | If any entity is refused, the heap is untouched. Line `i` of the message is the complaint about refused entity `i`, and the lines are joined by a newline and four spaces. The order of the refused entities follows from `UnadoptableAppend`. |
| Adoption.RehomedKeepsAdoptable | ugly/module/module.py:245-252 | Assigning `__module__` on adoptable objects keeps every object's adoptability and unwrapping as they were. |
| Adoption.Adopt | ugly/module/module.py:116-157 | If any entity is refused, it raises `AdoptException` for all refused entities and changes nothing. Otherwise it returns, or the nesting gets too deep; in that case the re-homing done before the error stays. On return every given entity, unwrapped, has `__module__` equal to the module's name. Only `__module__` of assignable non-method objects ever changes, and only to that name. |
| Adoption.AdoptEach | ugly/module/module.py:150-157 | Over entities that are all adoptable, the loop returns or raises the recursion error. On return it has set `__module__` of each unwrapped entity to the name. Along the way it may re-home other objects, namely attributes of the classes; those changes are re-homings too. |
| Adoption.AdoptEntity | ugly/module/module.py:151-157 | One turn: a non-class entity just has its `__module__` assigned. A class has its attributes adopted first. On return the entity belongs to the module. |
| Adoption.Assign | ugly/module/module.py:157 | The entity's `__module__` becomes the name and every other object is exactly as it was. Adoptability is unchanged, and the heap stays a re-homing of the original. |
| Adoption.AdoptEachStep | ugly/module/module.py:150-157 | One turn of the loop followed by the rest still re-homes only, and re-homes every entity. |
| Adoption.AdoptAttrs | ugly/module/module.py:153-155 | The loop over a class's adoptable attributes only re-homes objects, and only returns or raises the recursion error. |
| Adoption.AdoptAttr | ugly/module/module.py:153-155 | An attribute that fails the filter when it comes up is skipped and nothing changes. One that passes is adopted by a nested call, which needs room on the stack. On return that attribute, unwrapped, belongs to the module. |
| Adoption.AdoptAttrsRehomes | ugly/module/module.py:153-155 | On return, the attribute loop has re-homed every listed attribute that passed the filter when the loop began. The filter is lazy, so this holds even though earlier turns may re-home the class itself. |
| Adoption.ClassRehomedAdopt | ugly/module/module.py:150-157 | A successful call of `adopt` that changes a class's `__module__` has re-homed every attribute of that class that passed the filter at the start. |
| Adoption.AdoptRehomesAttrs | ugly/module/module.py:150-157 | On return, `adopt` has re-homed, for every class among the entities, each attribute that passed `get_adoptable_attrs`'s filter when the call began. |
| Adoption.AdoptSparesForeign | ugly/module/module.py:146-157 | An object is left exactly as it was, on every outcome, when it is none of the entities (after unwrapping) and no class among the entities shares its `__module__`. |
| Adoption.AdoptEachSparesForeign | ugly/module/module.py:150-157 | The same for the entity loop. |
| Adoption.AdoptEntitySparesForeign | ugly/module/module.py:151-157 | The same for one turn: an object other than the entity, whose `__module__` differs from the entity's when the entity is a class, is untouched. |
| Adoption.AdoptAttrsSparesForeign | ugly/module/module.py:153-155 | Only attributes sharing the class's `__module__` are re-homed: the attribute loop of a class, nested calls included, leaves every object whose `__module__` differs from the class's exactly as it was. |
| Adoption.AdoptAttrSparesForeign | ugly/module/module.py:153-155 | The same for one turn of the attribute loop. |
| AdoptionDoctests.GetAdoptableValueExamples | ugly/module/module.py:165-178 | The class and the function come back as they are; the method comes back as its function. |
| AdoptionDoctests.IsAdoptableExamples | ugly/module/module.py:223-243 | A class, a function, and an instance given a `__module__` are adoptable. `3` and `dict` are not. |
| AdoptionDoctests.GetAdoptableAttrsExample | ugly/module/module.py:189-206 | For `Example` the adoptable attributes are the inner class and the method, not `value` or `builtin`. |
| AdoptionDoctests.AdoptNumberExample | ugly/module/module.py:291-295 | `adopt(m, 3)` raises with the message `3 has no __module__ attribute.` and changes nothing. |
| AdoptionDoctests.AdoptBuiltinExample | ugly/module/module.py:299-303 | `adopt(m, dict)` raises with the message that `dict`'s `__module__` is read-only. |
| AdoptionDoctests.AdoptBothExample | ugly/module/module.py:307-312 | `adopt(m, dict, 3)` raises one message with both lines, in that order. |
| AdoptionDoctests.AdoptExample | ugly/module/module.py:122-133 | `adopt(m, Example)` moves the class and its method's function to `example`. The heap's `Example` merges this docstring's class with the richer one of `get_adoptable_attrs` (lines 189-195), so its inner class moves too, and `3`, `dict` and other objects are untouched. |
| AdoptionDoctests.AdoptExampleAndFunction | ugly/module/module.py:137-144 | `adopt(m, Example, function)` moves both the class and the function to `example`. |
| AdoptionDoctests.AdoptExampleTooDeep | ugly/module/module.py:153-155 | Not a docstring example: on the same heap, without room for a nested call, adopting `Example` raises the recursion error. |
| Text.Lines | ugly/module/module.py:435 | Splitting on newlines gives at least one piece, and no piece holds a newline. |
| Text.Unlines | ugly/module/module.py:435 | Joining with newlines starts with the first line. The result is that line alone exactly when there is one line; otherwise a newline follows it. |
| Text.UnlinesLines | ugly/module/module.py:435 | Joining the pieces of a string with newlines gives the string back. |
| Text.LinesUnlines | ugly/module/module.py:435 | Splitting joined lines that hold no newline gives the lines back. |
| Dedenting.Indent | ugly/module/module.py:435 | The leading run of spaces and tabs that `textwrap.dedent`'s pattern captures: a prefix of the line, all spaces and tabs, followed by something else or by the end. |
| Dedenting.CommonPrefix | ugly/module/module.py:435 | The longest common prefix of two indents, which a step of `textwrap.dedent`'s margin loop takes once the margin is set. It is a prefix of both, and the two differ right after it unless one runs out. |
| Dedenting.Margin | ugly/module/module.py:435 | There is no margin exactly when every line is blank. Otherwise the margin prefixes the indentation of every non-blank line and cannot be extended. |
| Dedenting.MarginIsLongest | ugly/module/module.py:435 | Every indentation common to all non-blank lines is a prefix of the margin. |
| Dedenting.MarginPrefixesLines | ugly/module/module.py:435 | Every non-blank line starts with the margin. |
| Dedenting.DedentedLine | ugly/module/module.py:435 | A non-blank line equals the margin followed by its dedented form. The dedented line keeps the rest of the indentation and stays non-blank. |
| Dedenting.DedentLine | ugly/module/module.py:435 | One line of `textwrap.dedent`'s output: a blank line becomes empty; another line that starts with the margin is the margin followed by the result; any other line stays as it is. |
| Dedenting.TextwrapDedent | ugly/module/module.py:435 | `textwrap.dedent` keeps the number of lines. |
| Dedenting.TextwrapDedentLines | ugly/module/module.py:435 | The line count is kept and blank lines become empty. Every other line loses exactly the margin. |
| Dedenting.NoMarginLeft | ugly/module/module.py:435 | After dedenting, the non-blank lines have no common indentation left. |
| Dedenting.TextwrapDedentIdempotent | ugly/module/module.py:435 | Dedenting dedented text changes nothing. |
| Dedenting.Dedent | ugly/module/module.py:415-435 | `dedent` loses one line when the input starts with a newline. Otherwise it keeps the number of lines. |
| Dedenting.DedentWithoutLeadingNewline | ugly/module/module.py:432-435 | Input that does not start with a newline goes to `textwrap.dedent` unchanged. Input that does loses exactly its first character. |
| Dedenting.DedentDropsOneNewline | ugly/module/module.py:432-433 | For input starting with a newline, the result is `textwrap.dedent` of the rest. |
| Dedenting.SecondNewlineStays | ugly/module/module.py:432-433 | Only one newline is dropped: after two leading newlines, the result still starts with a newline. |
| DedentDoctests.TwoLines | ugly/module/module.py:415-435 | With two code lines sharing an indentation and the second indented further, the shared part goes and the extra part stays. The newlines between and after the lines are kept. |
| DedentDoctests.DedentExample | ugly/module/module.py:420-430 | The docstring's block becomes `for i in range(10):\n    print i\n`. |

## Left out

- The test helpers for the network, processes, standard streams and the
  filesystem are left out. They are threads, sockets, timeouts,
  multiprocessing and operating-system calls, with no sequential logic to
  state.
- `create_module`, `installed_module` and `get_caller_module` are left out.
  They run `exec`, write `sys.modules` and inspect stack frames. `adopt`
  takes the module's `__name__` as a plain string instead.
- `is_module_rewritable` tries `obj.__module__ = obj.__module__`. Its result
  is a field of each object, `rewritable`. A method object's field is always
  false, because Python 2 methods refuse attribute assignment.
- `is_builtin` is left out: none of the modelled operations calls it.
- `Adoption.Adopt`: the interpreter's recursion limit is the `depth`
  parameter. When it runs out, the model raises `RecursionError`, which
  stands for Python 2's `RuntimeError: maximum recursion depth exceeded`.
  In Python too, a class recurses until that limit when it can reach itself
  through attributes that each pass the filter when their turn comes. The
  contract promises `Return` or this error, not which one.
- `Attributes.RunIsInvisible`, and the replacer as a whole, treat an object
  as one map in which a read and a write address the same slot. Python's
  `getattr` reads through the class, descriptors and base classes, while
  `setattr` writes the object's own `__dict__`. Class lookup, descriptors
  and inherited attributes are left out. So is what `with` then does to a
  `staticmethod` or an inherited attribute: it writes back the value read,
  as an own attribute, and that object is not restored to how it was.
- `Adoption.Adopt`: every non-method object carries its own `__module__`.
  An instance that reads `__module__` through its class is not modelled, so
  re-homing a class does not show through its instances. Nor does the model
  show that the probe of `is_module_rewritable` copies an inherited
  `__module__` into such an instance's own `__dict__`.
- `Attributes.DecoratedCall` does not model a decorated function that calls
  itself. `f` sees only the object, not the replacer's saved slot, so a
  nested call that re-enters the same replacer cannot be written.
  `Attributes.ReenteringLosesOriginal` shows what re-entering does with a
  `with` statement: the original value is lost.
- `Adoption.AdoptableAttrs`: `dir()` and `getattr` are not modelled. A
  class's `attrs` field lists the attribute values in `dir` order.
- `Attributes.Exit` requires a replacer that has been entered. In Python,
  `__exit__` without `__enter__` would write `None`; a `with` statement
  never does that.
- `Attributes.Enter` does not model a `setattr` that fails, such as a
  read-only attribute. Every attribute that can be read can also be written.
- The replacer's `existed` field is left out: nothing reads it.
- `Toggles.Exit` ignores the exception information it receives and never
  suppresses an exception, like the source. Exceptions are not modelled as
  values passed to it.
- `Dedenting.TextwrapDedent` models `textwrap.dedent`, which is not part of
  this model's source. It follows the later Python 2.7 behaviour:
  - lines holding only spaces and tabs become empty;
  - the longest common run of leading spaces and tabs of the other lines is
    removed.
- Non-string input to `dedent` is left out: the model's `dedent` takes a
  string. In Python, a non-string skips the newline strip and
  `textwrap.dedent` then raises `TypeError`.

=== FILE: adopt.dfy ===
/** Module "adoption": `adopt(module, *entities)` sets the `__module__`
    attribute of classes and functions to a module's name, recursing into the
    attributes of classes, after first refusing the whole call if any entity
    cannot be adopted. Python objects are records in a heap, so that an object
    reachable along two paths is one object, as in Python. */
module Adoption {
  import opened Py

  type Id = nat

  /** What an object is, as far as adoption is concerned. */
  datatype Kind =
    | Plain
      /** a method: `inspect.ismethod` holds and `im_func` is `func` */
    | Method(func: Id)
      /** a class; `attrs` are `getattr(cls, n)` for `n` in `dir(cls)`, in order */
    | Class(attrs: seq<Id>)

  /** A Python object: its `repr`, its `__module__` (`None` when it has no
      such attribute), whether assigning `__module__` succeeds, and its kind.
      Reading `__module__` of a method is forwarded to its function, so a
      method's own `moduleAttr` field is never read. */
  datatype Obj = Obj(repr: string, moduleAttr: Option<string>, rewritable: bool, kind: Kind)

  type Heap = map<Id, Obj>

  /** Every heap Python can build: references lead to objects, the function
      of a method is not itself a method, and the attributes of a method
      object cannot be assigned. */
  predicate Valid(h: Heap)
  {
    forall id :: id in h ==>
      match h[id].kind
      case Plain => true
      case Method(f) => f in h && !h[f].kind.Method? && !h[id].rewritable
      case Class(attrs) => forall j :: 0 <= j < |attrs| ==> attrs[j] in h
  }

  predicate InHeap(h: Heap, ids: seq<Id>)
  {
    forall i :: 0 <= i < |ids| ==> ids[i] in h
  }

  /** The value of `obj.__module__`, or `None` when reading it fails. */
  function ModuleOf(h: Heap, id: Id): Option<string>
    requires Valid(h) && id in h
  {
    match h[id].kind
    case Method(f) => h[f].moduleAttr
    case _ => h[id].moduleAttr
  }

  /** `get_adoptable_value`: a method's function, anything else itself. */
  function Unwrap(h: Heap, id: Id): (r: Id)
    requires Valid(h) && id in h
    ensures r in h && !h[r].kind.Method?
    ensures r == id || h[id].kind == Method(r)
  {
    match h[id].kind
    case Method(f) => f
    case _ => id
  }

  /** `is_module_rewritable`: the probe `obj.__module__ = obj.__module__`
      succeeds, which needs the read to succeed first. */
  function ModuleRewritable(h: Heap, id: Id): (b: bool)
    requires Valid(h) && id in h
    ensures b ==> ModuleOf(h, id).Some?
    ensures h[id].kind.Method? ==> !b
  {
    ModuleOf(h, id).Some? && h[id].rewritable
  }

  /** `is_adoptable`: the unwrapped object has a `__module__`, and assigning
      it succeeds. */
  function IsAdoptable(h: Heap, id: Id): (b: bool)
    requires Valid(h) && id in h
    ensures b <==> h[Unwrap(h, id)].moduleAttr.Some? && h[Unwrap(h, id)].rewritable
  {
    var o := Unwrap(h, id);
    ModuleOf(h, o).Some? && ModuleRewritable(h, o)
  }

  /** The filter of `get_adoptable_attrs(cls)` for one attribute `a`:
      adoptable, and `a.__module__ == cls.__module__`. */
  predicate AdoptableAttr(h: Heap, cls: Id, a: Id)
    requires Valid(h) && cls in h && a in h
  {
    IsAdoptable(h, a) && ModuleOf(h, a) == ModuleOf(h, cls)
  }

  /** `get_adoptable_attrs(cls)`, evaluated all at once: the attributes that
      pass the filter, in `dir` order. */
  function AdoptableAttrs(h: Heap, cls: Id): (r: seq<Id>)
    requires Valid(h) && cls in h && h[cls].kind.Class?
    ensures forall i :: 0 <= i < |r| ==> r[i] in h[cls].kind.attrs && AdoptableAttr(h, cls, r[i])
    ensures forall a :: a in h[cls].kind.attrs && AdoptableAttr(h, cls, a) ==> a in r
  {
    Filtered(h, cls, h[cls].kind.attrs)
  }

  function Filtered(h: Heap, cls: Id, attrs: seq<Id>): (r: seq<Id>)
    requires Valid(h) && cls in h && InHeap(h, attrs)
    ensures |r| <= |attrs|
    ensures forall i :: 0 <= i < |r| ==> r[i] in attrs && AdoptableAttr(h, cls, r[i])
    ensures forall a :: a in attrs && AdoptableAttr(h, cls, a) ==> a in r
  {
    if attrs == [] then []
    else
      var rest := Filtered(h, cls, attrs[1..]);
      assert forall a :: a in attrs[1..] ==> a in attrs;
      if AdoptableAttr(h, cls, attrs[0]) then [attrs[0]] + rest else rest
  }

  /** The entities `adopt` refuses, in the order given. */
  function Unadoptable(h: Heap, es: seq<Id>): (r: seq<Id>)
    requires Valid(h) && InHeap(h, es)
    ensures InHeap(h, r) && |r| <= |es|
    ensures forall i :: 0 <= i < |r| ==> !IsAdoptable(h, r[i])
    ensures |r| == 0 <==> forall i :: 0 <= i < |es| ==> IsAdoptable(h, es[i])
    ensures forall i :: 0 <= i < |es| && !IsAdoptable(h, es[i]) ==> es[i] in r
  {
    if es == [] then []
    else
      var rest := Unadoptable(h, es[1..]);
      assert forall i :: 1 <= i < |es| ==> es[i] == es[1..][i - 1];
      if IsAdoptable(h, es[0]) then rest else [es[0]] + rest
  }

  lemma InHeapAppend(h: Heap, xs: seq<Id>, ys: seq<Id>)
    requires InHeap(h, xs) && InHeap(h, ys)
    ensures InHeap(h, xs + ys)
    ensures xs != [] ==> InHeap(h, xs[1..]) && (xs + ys)[1..] == xs[1..] + ys
  {
    forall i | 0 <= i < |xs + ys|
      ensures (xs + ys)[i] in h
    {
      if i < |xs| {
        assert (xs + ys)[i] == xs[i];
      } else {
        assert (xs + ys)[i] == ys[i - |xs|];
      }
    }
    if xs != [] {
      assert forall i :: 0 <= i < |xs| - 1 ==> xs[1..][i] == xs[i + 1];
    }
  }

  /** The filter keeps the order of the attributes and how often each one
      occurs: filtering two runs one after the other is filtering each. */
  lemma {:induction false} FilteredAppend(h: Heap, cls: Id, xs: seq<Id>, ys: seq<Id>)
    requires Valid(h) && cls in h && InHeap(h, xs) && InHeap(h, ys)
    ensures InHeap(h, xs + ys)
    ensures Filtered(h, cls, xs + ys) == Filtered(h, cls, xs) + Filtered(h, cls, ys)
    decreases |xs|
  {
    InHeapAppend(h, xs, ys);
    if xs == [] {
      assert xs + ys == ys;
    } else {
      FilteredAppend(h, cls, xs[1..], ys);
    }
  }

  /** The refused entities keep the order and the multiplicity of the
      entities given: the list comprehension over two runs is the two
      comprehensions one after the other. */
  lemma {:induction false} UnadoptableAppend(h: Heap, xs: seq<Id>, ys: seq<Id>)
    requires Valid(h) && InHeap(h, xs) && InHeap(h, ys)
    ensures InHeap(h, xs + ys)
    ensures Unadoptable(h, xs + ys) == Unadoptable(h, xs) + Unadoptable(h, ys)
    decreases |xs|
  {
    InHeapAppend(h, xs, ys);
    if xs == [] {
      assert xs + ys == ys;
    } else {
      UnadoptableAppend(h, xs[1..], ys);
    }
  }

  // ---------------------------------------------------------------------
  // AdoptException

  /** The line `AdoptException` writes for one object, if any. */
  function Complaint(h: Heap, id: Id): (c: Option<string>)
    requires Valid(h) && id in h
    ensures c.None? <==> ModuleRewritable(h, id)
    ensures c.Some? ==> h[id].repr <= c.val
    ensures !h[id].kind.Method? ==> (c.None? <==> IsAdoptable(h, id))
    ensures ModuleOf(h, id).None? ==> c == Some(h[id].repr + NoModule)
    ensures ModuleOf(h, id).Some? && !ModuleRewritable(h, id) ==> c == Some(h[id].repr + ReadOnly)
  {
    if ModuleOf(h, id).None? then Some(h[id].repr + NoModule)
    else if !ModuleRewritable(h, id) then Some(h[id].repr + ReadOnly)
    else None
  }

  /** What the line says of an object without `__module__`. */
  const NoModule := " has no __module__ attribute."

  /** What the line says of an object whose `__module__` cannot be assigned,
      with the source's spelling. */
  const ReadOnly := " __module__ attribute is ready-only."

  /** The lines of the message, one per object that has a complaint, in order. */
  function Complaints(h: Heap, objs: seq<Id>): (lines: seq<string>)
    requires Valid(h) && InHeap(h, objs)
    ensures |lines| <= |objs|
    ensures |lines| == 0 <==> forall i :: 0 <= i < |objs| ==> Complaint(h, objs[i]).None?
    ensures (forall i :: 0 <= i < |objs| ==> Complaint(h, objs[i]).Some?) ==>
              |lines| == |objs| && forall i :: 0 <= i < |objs| ==> lines[i] == Complaint(h, objs[i]).val
  {
    if objs == [] then []
    else
      var rest := Complaints(h, objs[1..]);
      assert forall i :: 1 <= i < |objs| ==> objs[i] == objs[1..][i - 1];
      match Complaint(h, objs[0])
      case Some(line) => [line] + rest
      case None => rest
  }

  /** The lines of two runs of objects are the lines of the first run, then
      those of the second. */
  lemma {:induction false} ComplaintsAppend(h: Heap, xs: seq<Id>, ys: seq<Id>)
    requires Valid(h) && InHeap(h, xs) && InHeap(h, ys)
    ensures InHeap(h, xs + ys)
    ensures Complaints(h, xs + ys) == Complaints(h, xs) + Complaints(h, ys)
    decreases |xs|
  {
    InHeapAppend(h, xs, ys);
    if xs == [] {
      assert xs + ys == ys;
    } else {
      ComplaintsAppend(h, xs[1..], ys);
    }
  }

  /** `sep.join(parts)`. */
  function Join(parts: seq<string>, sep: string): (r: string)
    ensures parts == [] ==> r == ""
    ensures |parts| == 1 ==> r == parts[0]
    ensures |parts| > 0 ==> parts[0] <= r
  {
    if parts == [] then ""
    else if |parts| == 1 then parts[0]
    else parts[0] + sep + Join(parts[1..], sep)
  }

  /** Joining two non-empty runs is joining each and putting the separator
      between them. */
  lemma {:induction false} JoinAppend(xs: seq<string>, ys: seq<string>, sep: string)
    requires xs != [] && ys != []
    ensures Join(xs + ys, sep) == Join(xs, sep) + sep + Join(ys, sep)
    decreases |xs|
  {
    assert (xs + ys)[0] == xs[0];
    if |xs| == 1 {
      assert (xs + ys)[1..] == ys;
    } else {
      assert (xs + ys)[1..] == xs[1..] + ys;
      JoinAppend(xs[1..], ys, sep);
      var j, k := Join(xs[1..], sep), Join(ys, sep);
      assert Join(xs + ys, sep) == xs[0] + sep + (j + sep + k);
      assert Join(xs, sep) == xs[0] + sep + j;
    }
  }

  /** The separator between the lines of the message. */
  const LineSeparator := "\n    "

  /** `AdoptException(*objs)`: one argument, the lines joined, when there is
      at least one line; no argument otherwise. */
  function AdoptError(h: Heap, objs: seq<Id>): (e: Exc)
    requires Valid(h) && InHeap(h, objs)
    ensures e.AdoptException? && |e.args| <= 1
    ensures |e.args| == 0 <==> forall i :: 0 <= i < |objs| ==> Complaint(h, objs[i]).None?
    ensures |e.args| == 1 ==> e.args[0] == Join(Complaints(h, objs), LineSeparator)
  {
    var lines := Complaints(h, objs);
    if |lines| > 0 then AdoptException([Join(lines, LineSeparator)]) else AdoptException([])
  }

  /** Every object `adopt` refuses gets a line: either it has no
      `__module__`, or its `__module__` cannot be assigned. */
  lemma UnadoptableHasComplaint(h: Heap, id: Id)
    requires Valid(h) && id in h && !IsAdoptable(h, id)
    ensures Complaint(h, id).Some?
  {
  }

  /** A refused call raises one message with exactly one line per refused
      entity, in the order the entities were given. */
  lemma RefusalMessage(h: Heap, name: string, es: seq<Id>, depth: nat)
    requires Valid(h) && InHeap(h, es)
    requires exists i :: 0 <= i < |es| && !IsAdoptable(h, es[i])
    ensures var refused := Unadoptable(h, es);
            var lines := Complaints(h, refused);
            && |refused| > 0 && |lines| == |refused|
            && (forall i :: 0 <= i < |refused| ==> lines[i] == Complaint(h, refused[i]).val)
            && Adopt(h, name, es, depth) == Step(h, Raise(AdoptException([Join(lines, LineSeparator)])))
  {
    var refused := Unadoptable(h, es);
    forall i | 0 <= i < |refused|
      ensures Complaint(h, refused[i]).Some?
    {
      UnadoptableHasComplaint(h, refused[i]);
    }
  }

  // ---------------------------------------------------------------------
  // adopt

  /** How a heap can change under adoption: the same objects, and each one
      either untouched or, if its `__module__` could be assigned, with
      `__module__` set to `name` and nothing else changed. */
  predicate Rehomed(h: Heap, h2: Heap, name: string)
  {
    && h2.Keys == h.Keys
    && forall id :: id in h ==>
         || h2[id] == h[id]
         || (&& h2[id] == h[id].(moduleAttr := Some(name))
             && h[id].moduleAttr.Some? && h[id].rewritable && !h[id].kind.Method?)
  }

  lemma RehomedTransitive(h1: Heap, h2: Heap, h3: Heap, name: string)
    requires Rehomed(h1, h2, name) && Rehomed(h2, h3, name)
    ensures Rehomed(h1, h3, name)
  {
  }

  /** Re-homing keeps a heap valid and keeps every object as adoptable, or as
      unadoptable, as it was. */
  lemma RehomedKeepsAdoptable(h: Heap, h2: Heap, name: string)
    requires Valid(h) && Rehomed(h, h2, name)
    ensures Valid(h2)
    ensures forall id :: id in h ==> IsAdoptable(h2, id) == IsAdoptable(h, id)
    ensures forall id :: id in h ==> Unwrap(h2, id) == Unwrap(h, id)
  {
    assert forall id :: id in h ==> h2[id].kind == h[id].kind;
  }

  /** `adopt(module, *entities)` where `module.__name__` is `name`. `depth`
      is how many more nested calls of `adopt` the interpreter allows before
      raising `RecursionError`. */
  function Adopt(h: Heap, name: string, es: seq<Id>, depth: nat): (r: Step<Heap, ()>)
    requires Valid(h) && InHeap(h, es)
    ensures Rehomed(h, r.state, name)
    ensures (exists i :: 0 <= i < |es| && !IsAdoptable(h, es[i])) ==>
              r.state == h && r.outcome == Raise(AdoptError(h, Unadoptable(h, es)))
    ensures (forall i :: 0 <= i < |es| ==> IsAdoptable(h, es[i])) ==>
              r.outcome == Return(()) || r.outcome == Raise(RecursionError)
    ensures r.outcome.Return? ==>
              forall i :: 0 <= i < |es| ==> r.state[Unwrap(h, es[i])].moduleAttr == Some(name)
    decreases depth, 3, 0
  {
    var refused := Unadoptable(h, es);
    if |refused| > 0 then Step(h, Raise(AdoptError(h, refused)))
    else AdoptEach(h, name, es, depth)
  }

  /** The loop `for entity in entities`, over entities that are all
      adoptable. */
  function AdoptEach(h: Heap, name: string, es: seq<Id>, depth: nat): (r: Step<Heap, ()>)
    requires Valid(h) && InHeap(h, es)
    requires forall i :: 0 <= i < |es| ==> IsAdoptable(h, es[i])
    ensures Rehomed(h, r.state, name)
    ensures r.outcome == Return(()) || r.outcome == Raise(RecursionError)
    ensures r.outcome.Return? ==>
              forall i :: 0 <= i < |es| ==> r.state[Unwrap(h, es[i])].moduleAttr == Some(name)
    decreases depth, 2, |es|
  {
    if es == [] then Step(h, Return(()))
    else
      assert Unwrap(h, Unwrap(h, es[0])) == Unwrap(h, es[0]);
      assert IsAdoptable(h, es[0]);
      assert IsAdoptable(h, Unwrap(h, es[0]));
      var s := AdoptEntity(h, name, Unwrap(h, es[0]), depth);
      if s.outcome.Raise? then s
      else
        RehomedKeepsAdoptable(h, s.state, name);
        assert forall i :: 1 <= i < |es| ==> es[i] == es[1..][i - 1];
        var r := AdoptEach(s.state, name, es[1..], depth);
        AdoptEachStep(h, s.state, r, name, es);
        r
  }

  /** One turn of the entity loop, for the entity already unwrapped by
      `get_adoptable_value`: adopt the attributes of a class, then assign
      `entity.__module__`. */
  function AdoptEntity(h: Heap, name: string, e: Id, depth: nat): (r: Step<Heap, ()>)
    requires Valid(h) && e in h && IsAdoptable(h, e) && !h[e].kind.Method?
    ensures Rehomed(h, r.state, name)
    ensures r.outcome == Return(()) || r.outcome == Raise(RecursionError)
    ensures r.outcome.Return? ==> r.state[e].moduleAttr == Some(name)
    ensures !h[e].kind.Class? ==> r == Step(h[e := h[e].(moduleAttr := Some(name))], Return(()))
    decreases depth, 1, 0
  {
    var s := match h[e].kind
             case Class(attrs) => AdoptAttrs(h, name, e, attrs, depth)
             case _ => Step(h, Return(()));
    if s.outcome.Raise? then s
    else Step(Assign(h, s.state, e, name), Return(()))
  }

  /** `entity.__module__ = module.__name__` on a heap `h2` that earlier steps
      have re-homed from `h`, for an entity that was adoptable in `h`. */
  function Assign(h: Heap, h2: Heap, e: Id, name: string): (h3: Heap)
    requires Valid(h) && Rehomed(h, h2, name)
    requires e in h && IsAdoptable(h, e) && !h[e].kind.Method?
    ensures Valid(h3) && Rehomed(h, h3, name) && Rehomed(h2, h3, name)
    ensures h3[e].moduleAttr == Some(name)
    ensures forall id :: id in h2 && id != e ==> h3[id] == h2[id]
    ensures forall id :: id in h ==> IsAdoptable(h3, id) == IsAdoptable(h, id) && Unwrap(h3, id) == Unwrap(h, id)
  {
    var h3 := h2[e := h2[e].(moduleAttr := Some(name))];
    assert Rehomed(h2, h3, name);
    RehomedTransitive(h, h2, h3, name);
    RehomedKeepsAdoptable(h, h3, name);
    h3
  }

  /** After the first entity is adopted and the rest after it: the whole heap
      change is a re-homing, and on success every entity is re-homed. */
  lemma AdoptEachStep(h: Heap, h1: Heap, r: Step<Heap, ()>, name: string, es: seq<Id>)
    requires Valid(h) && InHeap(h, es) && |es| > 0
    requires Valid(h1) && Rehomed(h, h1, name) && Rehomed(h1, r.state, name)
    requires h1[Unwrap(h, es[0])].moduleAttr == Some(name)
    requires forall id :: id in h ==> Unwrap(h1, id) == Unwrap(h, id)
    requires r.outcome.Return? ==>
               forall i :: 0 <= i < |es| - 1 ==> r.state[Unwrap(h1, es[1..][i])].moduleAttr == Some(name)
    ensures Rehomed(h, r.state, name)
    ensures r.outcome.Return? ==>
              forall i :: 0 <= i < |es| ==> r.state[Unwrap(h, es[i])].moduleAttr == Some(name)
  {
    RehomedTransitive(h, h1, r.state, name);
    if r.outcome.Return? {
      forall i | 0 <= i < |es|
        ensures r.state[Unwrap(h, es[i])].moduleAttr == Some(name)
      {
        if i > 0 {
          assert es[i] == es[1..][i - 1];
        }
      }
    }
  }

  /** The loop `for a in get_adoptable_attrs(cls): adopt(module, a)`. */
  function AdoptAttrs(h: Heap, name: string, cls: Id, attrs: seq<Id>, depth: nat): (r: Step<Heap, ()>)
    requires Valid(h) && cls in h && InHeap(h, attrs)
    ensures Rehomed(h, r.state, name)
    ensures r.outcome == Return(()) || r.outcome == Raise(RecursionError)
    decreases depth, 0, |attrs|
  {
    if attrs == [] then Step(h, Return(()))
    else
      var s := AdoptAttr(h, name, cls, attrs[0], depth);
      if s.outcome.Raise? then s
      else
        RehomedKeepsAdoptable(h, s.state, name);
        assert forall i :: 1 <= i < |attrs| ==> attrs[i] == attrs[1..][i - 1];
        var r := AdoptAttrs(s.state, name, cls, attrs[1..], depth);
        RehomedTransitive(h, s.state, r.state, name);
        r
  }

  /** One turn of the attribute loop. The generator is lazy: whether `a` is
      adoptable and whether `a.__module__ == cls.__module__` are read from the
      heap as it is when `a` comes up. A nested call needs room on the
      interpreter's stack. */
  function AdoptAttr(h: Heap, name: string, cls: Id, a: Id, depth: nat): (r: Step<Heap, ()>)
    requires Valid(h) && cls in h && a in h
    ensures Rehomed(h, r.state, name)
    ensures r.outcome == Return(()) || r.outcome == Raise(RecursionError)
    ensures !AdoptableAttr(h, cls, a) ==> r == Step(h, Return(()))
    ensures AdoptableAttr(h, cls, a) && r.outcome.Return? ==> r.state[Unwrap(h, a)].moduleAttr == Some(name)
    decreases depth, 0, 0
  {
    if !AdoptableAttr(h, cls, a) then Step(h, Return(()))
    else if depth == 0 then Step(h, Raise(RecursionError))
    else
      var r := Adopt(h, name, [a], depth - 1);
      assert [a][0] == a;
      r
  }

  // ---------------------------------------------------------------------
  // What adoption leaves alone

  /** `x` is none of the entities, after unwrapping, and no class among them
      shares its `__module__`. Adoption then never reaches `x`: the attribute
      loop of a class enters only attributes sharing that class's
      `__module__`, so every class the recursion meets has the `__module__`
      of a class entity, or already `name`. */
  predicate ForeignTo(h: Heap, es: seq<Id>, x: Id)
    requires Valid(h) && InHeap(h, es) && x in h
  {
    forall i :: 0 <= i < |es| ==>
      && Unwrap(h, es[i]) != x
      && (h[Unwrap(h, es[i])].kind.Class? ==> h[Unwrap(h, es[i])].moduleAttr != h[x].moduleAttr)
  }

  /** After the first turn of the entity loop has left `x` alone, `x` is
      still foreign to the remaining entities: each of them kept its
      `__module__` or now has `name`, which `x` does not have. */
  lemma ForeignToRest(h: Heap, h1: Heap, name: string, es: seq<Id>, x: Id)
    requires Valid(h) && InHeap(h, es) && es != [] && x in h && ForeignTo(h, es, x)
    requires Rehomed(h, h1, name) && h1[x] == h[x] && h[x].moduleAttr != Some(name)
    ensures Valid(h1) && InHeap(h1, es[1..]) && ForeignTo(h1, es[1..], x)
  {
    RehomedKeepsAdoptable(h, h1, name);
    forall i | 0 <= i < |es| - 1
      ensures Unwrap(h1, es[1..][i]) != x
      ensures h1[Unwrap(h1, es[1..][i])].kind.Class? ==> h1[Unwrap(h1, es[1..][i])].moduleAttr != h1[x].moduleAttr
    {
      assert es[1..][i] == es[i + 1];
    }
  }

  /** Only the given entities and attributes sharing a class's `__module__`
      are re-homed: an object foreign to the entities is left exactly as it
      was, whatever the outcome. */
  lemma {:induction false} AdoptSparesForeign(h: Heap, name: string, es: seq<Id>, depth: nat, x: Id)
    requires Valid(h) && InHeap(h, es) && x in h && ForeignTo(h, es, x)
    ensures Adopt(h, name, es, depth).state[x] == h[x]
    decreases depth, 3, 0
  {
    if |Unadoptable(h, es)| == 0 {
      AdoptEachSparesForeign(h, name, es, depth, x);
    }
  }

  lemma {:induction false} AdoptEachSparesForeign(h: Heap, name: string, es: seq<Id>, depth: nat, x: Id)
    requires Valid(h) && InHeap(h, es) && x in h && ForeignTo(h, es, x)
    requires forall i :: 0 <= i < |es| ==> IsAdoptable(h, es[i])
    ensures AdoptEach(h, name, es, depth).state[x] == h[x]
    decreases depth, 2, |es|
  {
    if es != [] && h[x].moduleAttr != Some(name) {
      var e := Unwrap(h, es[0]);
      assert Unwrap(h, e) == e;
      var s := AdoptEntity(h, name, e, depth);
      AdoptEntitySparesForeign(h, name, e, depth, x);
      if s.outcome.Return? {
        ForeignToRest(h, s.state, name, es, x);
        RehomedKeepsAdoptable(h, s.state, name);
        assert forall i :: 1 <= i < |es| ==> es[i] == es[1..][i - 1];
        AdoptEachSparesForeign(s.state, name, es[1..], depth, x);
      }
    }
  }

  lemma {:induction false} AdoptEntitySparesForeign(h: Heap, name: string, e: Id, depth: nat, x: Id)
    requires Valid(h) && e in h && IsAdoptable(h, e) && !h[e].kind.Method?
    requires x in h && e != x
    requires h[e].kind.Class? ==> h[e].moduleAttr != h[x].moduleAttr
    ensures AdoptEntity(h, name, e, depth).state[x] == h[x]
    decreases depth, 1, 0
  {
    if h[e].kind.Class? {
      AdoptAttrsSparesForeign(h, name, e, h[e].kind.attrs, depth, x);
    }
  }

  /** The attribute loop of a class leaves alone every object whose
      `__module__` is not the class's. */
  lemma {:induction false} AdoptAttrsSparesForeign(h: Heap, name: string, cls: Id, attrs: seq<Id>, depth: nat, x: Id)
    requires Valid(h) && cls in h && h[cls].kind.Class? && InHeap(h, attrs)
    requires x in h && h[x].moduleAttr != h[cls].moduleAttr
    ensures AdoptAttrs(h, name, cls, attrs, depth).state[x] == h[x]
    decreases depth, 0, |attrs|
  {
    if attrs != [] && h[x].moduleAttr != Some(name) {
      var s := AdoptAttr(h, name, cls, attrs[0], depth);
      AdoptAttrSparesForeign(h, name, cls, attrs[0], depth, x);
      if s.outcome.Return? {
        RehomedKeepsAdoptable(h, s.state, name);
        assert forall i :: 1 <= i < |attrs| ==> attrs[i] == attrs[1..][i - 1];
        AdoptAttrsSparesForeign(s.state, name, cls, attrs[1..], depth, x);
      }
    }
  }

  /** An attribute adopted through its class shares the class's
      `__module__`, so `x` is foreign to the nested call. */
  lemma {:induction false} AdoptAttrSparesForeign(h: Heap, name: string, cls: Id, a: Id, depth: nat, x: Id)
    requires Valid(h) && cls in h && h[cls].kind.Class? && a in h
    requires x in h && h[x].moduleAttr != h[cls].moduleAttr
    ensures AdoptAttr(h, name, cls, a, depth).state[x] == h[x]
    decreases depth, 0, 0
  {
    if AdoptableAttr(h, cls, a) && depth > 0 {
      assert h[Unwrap(h, a)].moduleAttr == ModuleOf(h, a) == h[cls].moduleAttr;
      assert ForeignTo(h, [a], x);
      AdoptSparesForeign(h, name, [a], depth - 1, x);
    }
  }

  // ---------------------------------------------------------------------
  // What adoption reaches through a class

  /** Every attribute among `attrs` that passes the filter of
      `get_adoptable_attrs(cls)` in `h` has `__module__` equal to `name` in
      `h2`. */
  predicate AttrsRehomed(h: Heap, h2: Heap, name: string, cls: Id, attrs: seq<Id>)
    requires Valid(h) && cls in h && InHeap(h, attrs)
  {
    forall a :: a in attrs && AdoptableAttr(h, cls, a) ==>
      Unwrap(h, a) in h2 && h2[Unwrap(h, a)].moduleAttr == Some(name)
  }

  /** Later re-homing never takes the name away again. */
  lemma AttrsRehomedLater(h: Heap, h2: Heap, h3: Heap, name: string, cls: Id, attrs: seq<Id>)
    requires Valid(h) && cls in h && InHeap(h, attrs)
    requires AttrsRehomed(h, h2, name, cls, attrs) && Rehomed(h2, h3, name)
    ensures AttrsRehomed(h, h3, name, cls, attrs)
  {
  }

  /** What holds of all the attributes of a class holds of some of them. */
  lemma AttrsRehomedSome(h: Heap, h2: Heap, name: string, cls: Id, attrs: seq<Id>)
    requires Valid(h) && cls in h && h[cls].kind.Class? && InHeap(h, attrs)
    requires forall i :: 0 <= i < |attrs| ==> attrs[i] in h[cls].kind.attrs
    requires AttrsRehomed(h, h2, name, cls, h[cls].kind.attrs)
    ensures AttrsRehomed(h, h2, name, cls, attrs)
  {
  }

  /** While the class keeps its `__module__`, the filter changes its verdict
      on an attribute only once the attribute has been re-homed. */
  lemma AttrsRehomedFrom(h: Heap, h1: Heap, h2: Heap, name: string, cls: Id, attrs: seq<Id>)
    requires Valid(h) && Valid(h1) && Rehomed(h, h1, name) && Rehomed(h1, h2, name)
    requires cls in h && h[cls].kind.Class? && InHeap(h, attrs)
    requires h1[cls].moduleAttr == h[cls].moduleAttr
    requires AttrsRehomed(h1, h2, name, cls, attrs)
    ensures AttrsRehomed(h, h2, name, cls, attrs)
  {
    RehomedKeepsAdoptable(h, h1, name);
    forall a | a in attrs && AdoptableAttr(h, cls, a)
      ensures Unwrap(h, a) in h2 && h2[Unwrap(h, a)].moduleAttr == Some(name)
    {
      var u := Unwrap(h, a);
      if h1[u].moduleAttr == h[u].moduleAttr {
        assert AdoptableAttr(h1, cls, a);
      }
    }
  }

  /** The attribute the first turn adopted stays re-homed to the end of the
      loop, so the whole run is covered. */
  lemma FirstAttrRehomed(h: Heap, h1: Heap, h2: Heap, name: string, cls: Id, attrs: seq<Id>)
    requires Valid(h) && cls in h && InHeap(h, attrs) && attrs != [] && Rehomed(h1, h2, name)
    requires AdoptableAttr(h, cls, attrs[0]) ==> Unwrap(h, attrs[0]) in h1
    requires AdoptableAttr(h, cls, attrs[0]) ==> h1[Unwrap(h, attrs[0])].moduleAttr == Some(name)
    requires AttrsRehomed(h, h2, name, cls, attrs[1..])
    ensures AttrsRehomed(h, h2, name, cls, attrs)
  {
    forall b | b in attrs && AdoptableAttr(h, cls, b)
      ensures Unwrap(h, b) in h2 && h2[Unwrap(h, b)].moduleAttr == Some(name)
    {
      if b != attrs[0] {
        assert b in attrs[1..];
      }
    }
  }

  /** On success, the attribute loop over a class re-homes every attribute
      that passes the filter when the loop starts. The filter is lazy, but it
      turns an attribute down later only once the attribute is re-homed, or
      once a nested call has adopted the class itself and with it all its
      attributes. */
  lemma {:induction false} AdoptAttrsRehomes(h: Heap, name: string, cls: Id, attrs: seq<Id>, depth: nat)
    requires Valid(h) && cls in h && h[cls].kind.Class? && InHeap(h, attrs)
    requires forall i :: 0 <= i < |attrs| ==> attrs[i] in h[cls].kind.attrs
    ensures var r := AdoptAttrs(h, name, cls, attrs, depth);
            r.outcome.Return? ==> AttrsRehomed(h, r.state, name, cls, attrs)
    decreases depth, 0, |attrs|
  {
    var r := AdoptAttrs(h, name, cls, attrs, depth);
    if attrs != [] && r.outcome.Return? {
      var s := AdoptAttr(h, name, cls, attrs[0], depth);
      RehomedKeepsAdoptable(h, s.state, name);
      assert forall i :: 1 <= i < |attrs| ==> attrs[i] == attrs[1..][i - 1];
      if s.state[cls].moduleAttr == h[cls].moduleAttr {
        AdoptAttrsRehomes(s.state, name, cls, attrs[1..], depth);
        AttrsRehomedFrom(h, s.state, r.state, name, cls, attrs[1..]);
        FirstAttrRehomed(h, s.state, r.state, name, cls, attrs);
      } else {
        AttrClassRehomed(h, name, cls, attrs[0], depth, cls);
        AttrsRehomedLater(h, s.state, r.state, name, cls, h[cls].kind.attrs);
        AttrsRehomedSome(h, r.state, name, cls, attrs);
      }
    }
  }

  /** A turn of the attribute loop of `c0` whose nested call re-homes a class
      `x` has run the attribute loop of `x`. */
  lemma {:induction false} AttrClassRehomed(h: Heap, name: string, c0: Id, a: Id, depth: nat, x: Id)
    requires Valid(h) && c0 in h && a in h && x in h && h[x].kind.Class?
    ensures var s := AdoptAttr(h, name, c0, a, depth);
            s.outcome.Return? && s.state[x].moduleAttr != h[x].moduleAttr ==>
              AttrsRehomed(h, s.state, name, x, h[x].kind.attrs)
    decreases depth, 0, 0
  {
    if AdoptableAttr(h, c0, a) && depth > 0 {
      ClassRehomedAdopt(h, name, [a], depth - 1, x);
    }
  }

  /** A successful call of `adopt` that re-homes a class has run the
      attribute loop of that class, so every attribute that passed the
      filter at the start is re-homed too. */
  lemma {:induction false} ClassRehomedAdopt(h: Heap, name: string, es: seq<Id>, depth: nat, x: Id)
    requires Valid(h) && InHeap(h, es) && x in h && h[x].kind.Class?
    ensures var r := Adopt(h, name, es, depth);
            r.outcome.Return? && r.state[x].moduleAttr != h[x].moduleAttr ==>
              AttrsRehomed(h, r.state, name, x, h[x].kind.attrs)
    decreases depth, 3, 0
  {
    if |Unadoptable(h, es)| == 0 {
      EachRehomesAttrs(h, name, es, depth, x);
    }
  }

  /** `x` is one of the entities, after unwrapping. */
  predicate Among(h: Heap, es: seq<Id>, x: Id)
    requires Valid(h) && InHeap(h, es)
  {
    exists i :: 0 <= i < |es| && Unwrap(h, es[i]) == x
  }

  /** The same for the entity loop, and for a class that is one of the
      entities. */
  lemma {:induction false} EachRehomesAttrs(h: Heap, name: string, es: seq<Id>, depth: nat, x: Id)
    requires Valid(h) && InHeap(h, es) && x in h && h[x].kind.Class?
    requires forall i :: 0 <= i < |es| ==> IsAdoptable(h, es[i])
    ensures var r := AdoptEach(h, name, es, depth);
            r.outcome.Return? && (r.state[x].moduleAttr != h[x].moduleAttr || Among(h, es, x)) ==>
              AttrsRehomed(h, r.state, name, x, h[x].kind.attrs)
    decreases depth, 2, |es|
  {
    if es != [] {
      var e := Unwrap(h, es[0]);
      assert Unwrap(h, e) == e;
      var s := AdoptEntity(h, name, e, depth);
      EntityRehomesAttrs(h, name, e, depth, x);
      if s.outcome.Return? {
        RehomedKeepsAdoptable(h, s.state, name);
        assert forall i :: 1 <= i < |es| ==> es[i] == es[1..][i - 1];
        EachRehomesAttrs(s.state, name, es[1..], depth, x);
        var r := AdoptEach(s.state, name, es[1..], depth);
        assert AdoptEach(h, name, es, depth) == r;
        EachTurnLink(h, s.state, r, name, es, x);
      }
    } else {
      assert !Among(h, es, x);
    }
  }

  /** Puts one turn of the entity loop together with the rest of the loop:
      either this turn took care of `x`, or `x` kept its `__module__` and the
      rest of the loop did. */
  lemma EachTurnLink(h: Heap, h1: Heap, r: Step<Heap, ()>, name: string, es: seq<Id>, x: Id)
    requires Valid(h) && InHeap(h, es) && es != [] && x in h && h[x].kind.Class?
    requires Valid(h1) && Rehomed(h, h1, name) && Rehomed(h1, r.state, name)
    requires forall id :: id in h ==> Unwrap(h1, id) == Unwrap(h, id)
    requires x == Unwrap(h, es[0]) || h1[x].moduleAttr != h[x].moduleAttr ==>
               AttrsRehomed(h, h1, name, x, h[x].kind.attrs)
    requires InHeap(h1, es[1..])
    requires r.outcome.Return? && (r.state[x].moduleAttr != h1[x].moduleAttr || Among(h1, es[1..], x)) ==>
               AttrsRehomed(h1, r.state, name, x, h[x].kind.attrs)
    ensures r.outcome.Return? && (r.state[x].moduleAttr != h[x].moduleAttr || Among(h, es, x)) ==>
              AttrsRehomed(h, r.state, name, x, h[x].kind.attrs)
  {
    if r.outcome.Return? && (r.state[x].moduleAttr != h[x].moduleAttr || Among(h, es, x)) {
      if x == Unwrap(h, es[0]) || h1[x].moduleAttr != h[x].moduleAttr {
        AttrsRehomedLater(h, h1, r.state, name, x, h[x].kind.attrs);
      } else {
        if Among(h, es, x) {
          var i :| 0 <= i < |es| && Unwrap(h, es[i]) == x;
          assert es[1..][i - 1] == es[i];
        }
        AttrsRehomedFrom(h, h1, r.state, name, x, h[x].kind.attrs);
      }
    }
  }

  /** A turn of the entity loop that adopts the class `x`, or re-homes it on
      the way, has run the attribute loop of `x`. */
  lemma {:induction false} EntityRehomesAttrs(h: Heap, name: string, e: Id, depth: nat, x: Id)
    requires Valid(h) && e in h && IsAdoptable(h, e) && !h[e].kind.Method?
    requires x in h && h[x].kind.Class?
    ensures var s := AdoptEntity(h, name, e, depth);
            s.outcome.Return? && (x == e || s.state[x].moduleAttr != h[x].moduleAttr) ==>
              AttrsRehomed(h, s.state, name, x, h[x].kind.attrs)
    decreases depth, 1, 0
  {
    var s := AdoptEntity(h, name, e, depth);
    if h[e].kind.Class? && s.outcome.Return? {
      var t := AdoptAttrs(h, name, e, h[e].kind.attrs, depth);
      assert t.outcome.Return?;
      var h3 := Assign(h, t.state, e, name);
      assert s.state == h3;
      if x == e {
        AdoptAttrsRehomes(h, name, x, h[x].kind.attrs, depth);
      } else {
        ClassRehomedAttrs(h, name, e, h[e].kind.attrs, depth, x);
      }
      if AttrsRehomed(h, t.state, name, x, h[x].kind.attrs) {
        AttrsRehomedLater(h, t.state, h3, name, x, h[x].kind.attrs);
      }
    }
  }

  /** The same for the attribute loop of any class `c0`. */
  lemma {:induction false} ClassRehomedAttrs(h: Heap, name: string, c0: Id, attrs: seq<Id>, depth: nat, x: Id)
    requires Valid(h) && c0 in h && InHeap(h, attrs) && x in h && h[x].kind.Class?
    ensures var r := AdoptAttrs(h, name, c0, attrs, depth);
            r.outcome.Return? && r.state[x].moduleAttr != h[x].moduleAttr ==>
              AttrsRehomed(h, r.state, name, x, h[x].kind.attrs)
    decreases depth, 0, |attrs|
  {
    var r := AdoptAttrs(h, name, c0, attrs, depth);
    if attrs != [] && r.outcome.Return? && r.state[x].moduleAttr != h[x].moduleAttr {
      var s := AdoptAttr(h, name, c0, attrs[0], depth);
      RehomedKeepsAdoptable(h, s.state, name);
      assert forall i :: 1 <= i < |attrs| ==> attrs[i] == attrs[1..][i - 1];
      if s.state[x].moduleAttr != h[x].moduleAttr {
        AttrClassRehomed(h, name, c0, attrs[0], depth, x);
        AttrsRehomedLater(h, s.state, r.state, name, x, h[x].kind.attrs);
      } else {
        ClassRehomedAttrs(s.state, name, c0, attrs[1..], depth, x);
        AttrsRehomedFrom(h, s.state, r.state, name, x, h[x].kind.attrs);
      }
    }
  }

  /** On success, `adopt` reaches into every class it is given: each
      attribute that passes the filter of `get_adoptable_attrs` when the call
      starts ends with `__module__` equal to the module's name, like the
      class itself. */
  lemma AdoptRehomesAttrs(h: Heap, name: string, es: seq<Id>, depth: nat)
    requires Valid(h) && InHeap(h, es)
    ensures var r := Adopt(h, name, es, depth);
            r.outcome.Return? ==>
              forall i :: 0 <= i < |es| && h[Unwrap(h, es[i])].kind.Class? ==>
                AttrsRehomed(h, r.state, name, Unwrap(h, es[i]), h[Unwrap(h, es[i])].kind.attrs)
  {
    if |Unadoptable(h, es)| == 0 {
      forall i | 0 <= i < |es| && h[Unwrap(h, es[i])].kind.Class?
        ensures var r := AdoptEach(h, name, es, depth);
                r.outcome.Return? ==>
                  AttrsRehomed(h, r.state, name, Unwrap(h, es[i]), h[Unwrap(h, es[i])].kind.attrs)
      {
        assert Among(h, es, Unwrap(h, es[i]));
        EachRehomesAttrs(h, name, es, depth, Unwrap(h, es[i]));
      }
    }
  }
}

=== FILE: adopt_doctests.dfy ===
/** The examples in the docstrings of `adopt`, `get_adoptable_value`,
    `get_adoptable_attrs`, `is_adoptable` and `AdoptException`, stated over
    small heaps and proved of the model, and what the recursion limit does
    on the same heap. */
module AdoptionDoctests {
  import opened Py
  import opened Adoption

  /** One class `Example` for all the docstrings. The docstring of `adopt`
      gives its `Example` only a method; that of `get_adoptable_attrs` gives
      its own `Example` an inner class, `value = 3` and `builtin = dict` as
      well. This heap merges the two: the attributes in `dir` order are
      `Inner`, `builtin`, `method`, `value`. Id 6 is the function `function`
      of the second `adopt` example. */
  const Example: Heap := map[
    0 := Obj("<class 'Example'>", Some("__main__"), true, Class([3, 5, 1, 4])),
    1 := Obj("<unbound method Example.method>", None, false, Method(2)),
    2 := Obj("<function method>", Some("__main__"), true, Plain),
    3 := Obj("<class 'Inner'>", Some("__main__"), true, Class([])),
    4 := Obj("3", None, false, Plain),
    5 := Obj("<type 'dict'>", Some("__builtin__"), false, Class([])),
    6 := Obj("<function function>", Some("__main__"), true, Plain)
  ]

  lemma ExampleIsValid()
    ensures Valid(Example)
  {
  }

  /** `get_adoptable_value`: the class and the function come back as they
      are, the method as its function. */
  lemma GetAdoptableValueExamples()
    ensures Valid(Example)
    ensures Unwrap(Example, 0) == 0 && Unwrap(Example, 6) == 6
    ensures Unwrap(Example, 1) == 2
  {
  }

  /** `is_adoptable`: classes and functions are, `3` and `dict` are not, and
      an instance given a `__module__` is. */
  lemma IsAdoptableExamples()
    ensures Valid(Example)
    ensures IsAdoptable(Example, 0) && IsAdoptable(Example, 6)
    ensures !IsAdoptable(Example, 4) && !IsAdoptable(Example, 5)
    ensures var h := Example[7 := Obj("<Example object>", Some(""), true, Plain)];
            Valid(h) && IsAdoptable(h, 7)
  {
    var h := Example[7 := Obj("<Example object>", Some(""), true, Plain)];
    assert Valid(h);
  }

  /** `get_adoptable_attrs(Example)`: exactly the method and the inner
      class, not `value` nor `builtin`. */
  lemma GetAdoptableAttrsExample()
    ensures Valid(Example)
    ensures AdoptableAttrs(Example, 0) == [3, 1]
  {
    AttrFacts();
    FilterFour(Example, 0, 3, 5, 1, 4);
  }

  /** Four attributes of which the first and third pass the filter. */
  lemma FilterFour(h: Heap, cls: Id, p: Id, q: Id, r: Id, t: Id)
    requires Valid(h) && cls in h && h[cls].kind == Class([p, q, r, t])
    requires p in h && q in h && r in h && t in h
    requires AdoptableAttr(h, cls, p) && !AdoptableAttr(h, cls, q)
    requires AdoptableAttr(h, cls, r) && !AdoptableAttr(h, cls, t)
    ensures AdoptableAttrs(h, cls) == [p, r]
  {
    assert [t] == [t] + [];
    FilteredCons(h, cls, t, []);
    assert Filtered(h, cls, [t]) == [];
    assert [r, t] == [r] + [t];
    FilteredCons(h, cls, r, [t]);
    assert Filtered(h, cls, [r, t]) == [r];
    assert [q, r, t] == [q] + [r, t];
    FilteredCons(h, cls, q, [r, t]);
    assert Filtered(h, cls, [q, r, t]) == [r];
    assert [p, q, r, t] == [p] + [q, r, t];
    FilteredCons(h, cls, p, [q, r, t]);
  }

  /** Which attributes of `Example` pass the filter. */
  lemma AttrFacts()
    ensures Valid(Example) && 0 in Example && Example[0].kind == Class([3, 5, 1, 4])
    ensures 3 in Example && 5 in Example && 1 in Example && 4 in Example
    ensures AdoptableAttr(Example, 0, 3) && !AdoptableAttr(Example, 0, 5)
    ensures AdoptableAttr(Example, 0, 1) && !AdoptableAttr(Example, 0, 4)
  {
  }

  /** The filter on one more attribute in front. */
  lemma FilteredCons(h: Heap, cls: Id, a: Id, rest: seq<Id>)
    requires Valid(h) && cls in h && a in h && InHeap(h, rest)
    ensures InHeap(h, [a] + rest)
    ensures Filtered(h, cls, [a] + rest)
         == (if AdoptableAttr(h, cls, a) then [a] else []) + Filtered(h, cls, rest)
  {
    assert ([a] + rest)[1..] == rest;
  }

  /** The message for `3`: its `repr`, then that it has no `__module__`. */
  const NumberLine := "3" + " has no __module__ attribute."

  /** The message for `dict`: its `repr`, then that `__module__` is
      read-only. */
  const DictLine := "<type 'dict'>" + " __module__ attribute is ready-only."

  /** `adopt(m, 3)`: nothing changes, and the message says `3` has no
      `__module__`. */
  lemma AdoptNumberExample()
    ensures Valid(Example)
    ensures Adopt(Example, "m", [4], 1) == Step(Example, Raise(AdoptException([NumberLine])))
  {
    assert Unadoptable(Example, [4]) == [4];
    NumberComplaint();
    assert Complaints(Example, [4]) == [NumberLine];
  }

  /** `adopt(m, dict)`: nothing changes, and the message says the
      `__module__` of `dict` cannot be assigned. */
  lemma AdoptBuiltinExample()
    ensures Valid(Example)
    ensures Adopt(Example, "m", [5], 1) == Step(Example, Raise(AdoptException([DictLine])))
  {
    assert Unadoptable(Example, [5]) == [5];
    DictComplaint();
    assert Complaints(Example, [5]) == [DictLine];
  }

  /** `adopt(m, dict, 3)`: one line per refused object, in the order given,
      joined by a newline and four spaces. */
  lemma AdoptBothExample()
    ensures Valid(Example)
    ensures Adopt(Example, "m", [5, 4], 1)
            == Step(Example, Raise(AdoptException([DictLine + "\n    " + NumberLine])))
  {
    BothRefused();
    BothComplaints();
    var lines := [DictLine, NumberLine];
    assert Join(lines, LineSeparator) == lines[0] + LineSeparator + lines[1] by {
      assert lines[1..] == [NumberLine];
    }
  }

  lemma BothRefused()
    ensures Valid(Example)
    ensures Unadoptable(Example, [5, 4]) == [5, 4]
  {
    assert [5, 4][1..] == [4];
    assert Unadoptable(Example, [4]) == [4];
  }

  lemma BothComplaints()
    ensures Valid(Example)
    ensures Complaints(Example, [5, 4]) == [DictLine, NumberLine]
  {
    NumberComplaint();
    DictComplaint();
    TwoComplaints(Example, 5, 4);
  }

  lemma NumberComplaint()
    ensures Valid(Example)
    ensures Complaint(Example, 4) == Some(NumberLine)
  {
    assert Example[4].repr == "3";
  }

  lemma DictComplaint()
    ensures Valid(Example)
    ensures Complaint(Example, 5) == Some(DictLine)
  {
    assert Example[5].repr == "<type 'dict'>" && !ModuleRewritable(Example, 5);
  }

  lemma TwoComplaints(h: Heap, x: Id, y: Id)
    requires Valid(h) && x in h && y in h
    requires Complaint(h, x).Some? && Complaint(h, y).Some?
    ensures Complaints(h, [x, y]) == [Complaint(h, x).val, Complaint(h, y).val]
  {
    assert [x, y][1..] == [y];
    assert [y][1..] == [];
  }

  /** The heap after each assignment made by `adopt(m, Example)`. */
  function Rehome(h: Heap, id: Id): Heap
    requires id in h
  {
    h[id := h[id].(moduleAttr := Some("example"))]
  }

  const AfterInner: Heap := Rehome(Example, 3)
  const AfterMethod: Heap := Rehome(AfterInner, 2)
  const AfterExample: Heap := Rehome(AfterMethod, 0)

  lemma AdoptInnerStep()
    ensures Valid(Example)
    ensures Adopt(Example, "example", [3], 0) == Step(AfterInner, Return(()))
  {
    assert Unadoptable(Example, [3]) == [];
    assert AdoptEach(Example, "example", [3], 0) == AdoptEach(AfterInner, "example", [], 0);
  }

  lemma AdoptMethodStep()
    ensures Valid(AfterInner)
    ensures Adopt(AfterInner, "example", [1], 0) == Step(AfterMethod, Return(()))
  {
    assert Valid(AfterInner);
    assert Unadoptable(AfterInner, [1]) == [];
    assert AdoptEach(AfterInner, "example", [1], 0) == AdoptEach(AfterMethod, "example", [], 0);
  }

  lemma AdoptAttrsTail()
    ensures Valid(AfterInner) && Valid(AfterMethod)
    ensures AdoptAttrs(AfterInner, "example", 0, [5, 1, 4], 1) == Step(AfterMethod, Return(()))
  {
    AdoptAttrsLastTwo();
    assert !AdoptableAttr(AfterInner, 0, 5);
    assert [5, 1, 4][1..] == [1, 4];
  }

  lemma AdoptAttrsLastTwo()
    ensures Valid(AfterInner) && Valid(AfterMethod)
    ensures AdoptAttrs(AfterInner, "example", 0, [1, 4], 1) == Step(AfterMethod, Return(()))
  {
    assert Valid(AfterInner) && Valid(AfterMethod);
    assert !AdoptableAttr(AfterMethod, 0, 4);
    assert AdoptAttrs(AfterMethod, "example", 0, [4], 1) == Step(AfterMethod, Return(()));
    assert AdoptableAttr(AfterInner, 0, 1);
    AdoptMethodStep();
    assert [1, 4][1..] == [4];
  }

  lemma AdoptAttrsExample()
    ensures Valid(Example)
    ensures AdoptAttrs(Example, "example", 0, [3, 5, 1, 4], 1) == Step(AfterMethod, Return(()))
  {
    assert AdoptableAttr(Example, 0, 3);
    AdoptInnerStep();
    AdoptAttrsTail();
    assert [3, 5, 1, 4][1..] == [5, 1, 4];
  }

  /** One class entity: adopt its attributes, then assign its own
      `__module__`. */
  lemma AdoptEachClass(h: Heap, name: string, e: Id, depth: nat, h2: Heap)
    requires Valid(h) && e in h && IsAdoptable(h, e) && h[e].kind.Class?
    requires AdoptAttrs(h, name, e, h[e].kind.attrs, depth) == Step(h2, Return(()))
    ensures e in h2
    ensures AdoptEach(h, name, [e], depth) == Step(h2[e := h2[e].(moduleAttr := Some(name))], Return(()))
  {
    assert [e][1..] == [];
  }

  lemma AdoptEachExample()
    ensures Valid(Example)
    ensures AdoptEach(Example, "example", [0], 1) == Step(AfterExample, Return(()))
  {
    AdoptAttrsExample();
    ExampleIsClass();
    AdoptEachClass(Example, "example", 0, 1, AfterMethod);
  }

  lemma ExampleIsClass()
    ensures Valid(Example) && 0 in Example && IsAdoptable(Example, 0)
    ensures Example[0].kind == Class([3, 5, 1, 4])
  {
  }

  /** `adopt(m, Example)`: the class, the function of its method and its
      inner class now belong to `example`; `dict`, `3` and the method object
      itself are untouched. The attributes are matched against the class's
      `__module__` before the class itself is re-homed, which is why the
      method and the inner class qualify. */
  lemma AdoptExample()
    ensures Valid(Example)
    ensures var r := Adopt(Example, "example", [0], 1);
            && r.outcome == Return(())
            && r.state.Keys == Example.Keys
            && r.state[0].moduleAttr == Some("example")
            && r.state[2].moduleAttr == Some("example")
            && r.state[3].moduleAttr == Some("example")
            && r.state[1] == Example[1] && r.state[4] == Example[4] && r.state[5] == Example[5]
            && r.state[6] == Example[6]
  {
    AdoptExampleResult();
    AfterExampleFacts();
  }

  lemma AdoptExampleResult()
    ensures Valid(Example)
    ensures Adopt(Example, "example", [0], 1) == Step(AfterExample, Return(()))
  {
    assert Unadoptable(Example, [0]) == [];
    AdoptEachExample();
  }

  /** What the three assignments leave in the heap. */
  lemma AfterExampleFacts()
    ensures AfterExample.Keys == Example.Keys
    ensures AfterExample[0].moduleAttr == Some("example")
    ensures AfterExample[2].moduleAttr == Some("example")
    ensures AfterExample[3].moduleAttr == Some("example")
    ensures AfterExample[1] == Example[1] && AfterExample[4] == Example[4] && AfterExample[5] == Example[5]
    ensures AfterExample[6] == Example[6]
  {
  }

  /** A non-class entity: only its own `__module__` is assigned. */
  lemma AdoptEachPlain(h: Heap, name: string, e: Id, depth: nat)
    requires Valid(h) && e in h && IsAdoptable(h, e) && h[e].kind.Plain?
    ensures AdoptEach(h, name, [e], depth) == Step(h[e := h[e].(moduleAttr := Some(name))], Return(()))
  {
    assert [e][1..] == [];
  }

  /** The loop over two entities: the second is adopted in the heap the
      first one left. */
  lemma AdoptEachTwo(h: Heap, name: string, e: Id, f: Id, depth: nat, h1: Heap)
    requires Valid(h) && e in h && f in h && IsAdoptable(h, e) && IsAdoptable(h, f)
    requires AdoptEach(h, name, [e], depth) == Step(h1, Return(()))
    ensures Valid(h1) && f in h1 && IsAdoptable(h1, f)
    ensures AdoptEach(h, name, [e, f], depth) == AdoptEach(h1, name, [f], depth)
  {
    RehomedKeepsAdoptable(h, h1, name);
    assert [e, f][1..] == [f] && [e][1..] == [];
  }

  const AfterBoth: Heap := Rehome(AfterExample, 6)

  lemma AdoptEachExampleAndFunction()
    ensures Valid(Example)
    ensures AdoptEach(Example, "example", [0, 6], 1) == Step(AfterBoth, Return(()))
  {
    AdoptEachExample();
    FunctionUntouched();
    FunctionAdoptable();
    ThenPlain(Example, "example", 0, 6, 1, AfterExample);
  }

  lemma FunctionAdoptable()
    ensures Valid(Example) && 0 in Example && 6 in Example
    ensures IsAdoptable(Example, 0) && IsAdoptable(Example, 6) && Example[6].kind.Plain?
  {
  }

  /** An entity followed by a plain function that the first one leaves
      untouched. */
  lemma ThenPlain(h: Heap, name: string, e: Id, f: Id, depth: nat, h1: Heap)
    requires Valid(h) && e in h && f in h && IsAdoptable(h, e) && IsAdoptable(h, f) && h[f].kind.Plain?
    requires AdoptEach(h, name, [e], depth) == Step(h1, Return(()))
    requires f in h1 && h1[f] == h[f]
    ensures AdoptEach(h, name, [e, f], depth) == Step(h1[f := h[f].(moduleAttr := Some(name))], Return(()))
  {
    AdoptEachTwo(h, name, e, f, depth, h1);
    AdoptEachPlain(h1, name, f, depth);
  }

  lemma FunctionUntouched()
    ensures 6 in AfterExample && AfterExample[6] == Example[6]
    ensures AfterBoth == AfterExample[6 := Example[6].(moduleAttr := Some("example"))]
  {
  }

  lemma NothingRefused()
    ensures Valid(Example)
    ensures Unadoptable(Example, [0, 6]) == []
  {
    assert [0, 6][1..] == [6];
  }

  /** `adopt(m, Example, function)`: the class and the function both belong
      to `example` afterwards. */
  lemma AdoptExampleAndFunction()
    ensures Valid(Example)
    ensures var r := Adopt(Example, "example", [0, 6], 1);
            && r == Step(AfterBoth, Return(()))
            && r.state[0].moduleAttr == Some("example")
            && r.state[6].moduleAttr == Some("example")
  {
    NothingRefused();
    AdoptEachExampleAndFunction();
  }

  /** Not a docstring example: without room for one nested call, adopting
      a class whose attributes need adopting raises `RecursionError`. */
  lemma AdoptExampleTooDeep()
    ensures Valid(Example)
    ensures Adopt(Example, "example", [0], 0).outcome == Raise(RecursionError)
  {
    assert Unadoptable(Example, [0]) == [];
    assert AdoptableAttr(Example, 0, 3);
  }
}

=== FILE: dedent.dfy ===
/** `dedent(code)`: drop one leading newline, then remove the indentation
    common to all lines, as the standard library's `textwrap.dedent` does:
    lines holding only spaces and tabs become empty, and the longest run of
    leading spaces and tabs shared by every other line is cut from each. */
module Dedenting {
  import opened Py
  import opened Text

  predicate IsSpace(c: char)
  {
    c == ' ' || c == '\t'
  }

  /** A line the pattern `^[ \t]+$` empties, or an empty line. */
  predicate Blank(line: string)
  {
    forall i :: 0 <= i < |line| ==> IsSpace(line[i])
  }

  /** The leading run of spaces and tabs of a line. */
  function Indent(line: string): (w: string)
    ensures w <= line
    ensures forall i :: 0 <= i < |w| ==> IsSpace(w[i])
    ensures |w| < |line| ==> !IsSpace(line[|w|])
  {
    if line == [] || !IsSpace(line[0]) then [] else [line[0]] + Indent(line[1..])
  }

  /** The longest common prefix of two strings. */
  function CommonPrefix(a: string, b: string): (p: string)
    ensures p <= a && p <= b
    ensures |p| < |a| && |p| < |b| ==> a[|p|] != b[|p|]
  {
    if a == [] || b == [] || a[0] != b[0] then [] else [a[0]] + CommonPrefix(a[1..], b[1..])
  }

  /** `m` is a prefix of the indent of every non-blank line. */
  predicate CommonIndent(ls: seq<string>, m: string)
  {
    forall i :: 0 <= i < |ls| && !Blank(ls[i]) ==> m <= Indent(ls[i])
  }

  /** No longer prefix is common: the indent of some non-blank line is just
      `m`, or two non-blank lines' indents differ right after `m`. */
  predicate Stops(ls: seq<string>, m: string)
  {
    exists i, j :: 0 <= i < |ls| && 0 <= j < |ls| && !Blank(ls[i]) && !Blank(ls[j]) &&
      (|Indent(ls[i])| == |m|
       || (|m| < |Indent(ls[i])| && |m| < |Indent(ls[j])| && Indent(ls[i])[|m|] != Indent(ls[j])[|m|]))
  }

  /** The margin `textwrap.dedent` computes, line after line: `None` while
      every line so far is blank, then the common prefix of the margin so far
      and the next non-blank line's indent. */
  function Margin(ls: seq<string>): (m: Option<string>)
    ensures m.None? <==> forall i :: 0 <= i < |ls| ==> Blank(ls[i])
    ensures m.Some? ==> CommonIndent(ls, m.val) && Stops(ls, m.val)
  {
    if ls == [] then None
    else
      var init := ls[..|ls| - 1];
      var m := NextMargin(Margin(init), ls[|ls| - 1]);
      MarginExtends(init, ls, Margin(init));
      m
  }

  /** One step of the margin: a blank line leaves it as it is. */
  function NextMargin(m: Option<string>, line: string): Option<string>
  {
    if Blank(line) then m
    else match m
      case None => Some(Indent(line))
      case Some(p) => Some(CommonPrefix(p, Indent(line)))
  }

  /** The margin of the lines so far, stepped over one more line, is the
      margin of all of them. */
  lemma MarginExtends(init: seq<string>, ls: seq<string>, m: Option<string>)
    requires |ls| == |init| + 1 && init == ls[..|init|]
    requires m.None? <==> forall i :: 0 <= i < |init| ==> Blank(init[i])
    requires m.Some? ==> CommonIndent(init, m.val) && Stops(init, m.val)
    ensures var r := NextMargin(m, ls[|init|]);
            && (r.None? <==> forall i :: 0 <= i < |ls| ==> Blank(ls[i]))
            && (r.Some? ==> CommonIndent(ls, r.val) && Stops(ls, r.val))
  {
    var n := |init|;
    assert forall i :: 0 <= i < n ==> init[i] == ls[i];
    if Blank(ls[n]) {
      if m.Some? {
        StopsExtends(init, ls, m.val);
      }
    } else if m.None? {
      FirstIndent(init, ls);
    } else {
      MarginStep(init, ls, m.val, Indent(ls[n]), CommonPrefix(m.val, Indent(ls[n])));
      CommonIndentStep(init, ls, m.val);
    }
  }

  /** The first non-blank line sets the margin to its own indent. */
  lemma FirstIndent(init: seq<string>, ls: seq<string>)
    requires |ls| == |init| + 1 && init == ls[..|init|]
    requires forall i :: 0 <= i < |init| ==> Blank(init[i])
    requires !Blank(ls[|init|])
    ensures CommonIndent(ls, Indent(ls[|init|])) && Stops(ls, Indent(ls[|init|]))
  {
    var n := |init|;
    assert forall i :: 0 <= i < n ==> init[i] == ls[i];
    assert |Indent(ls[n])| == |Indent(ls[n])|;
  }

  lemma CommonIndentStep(init: seq<string>, ls: seq<string>, p: string)
    requires |ls| == |init| + 1 && init == ls[..|init|]
    requires CommonIndent(init, p)
    ensures CommonIndent(ls, CommonPrefix(p, Indent(ls[|init|])))
  {
    var n := |init|;
    var c := CommonPrefix(p, Indent(ls[n]));
    forall i | 0 <= i < |ls| && !Blank(ls[i])
      ensures c <= Indent(ls[i])
    {
      if i < n {
        assert init[i] == ls[i];
        assert p <= Indent(init[i]);
      }
    }
  }

  lemma StopsExtends(init: seq<string>, ls: seq<string>, m: string)
    requires init <= ls && Stops(init, m)
    ensures Stops(ls, m)
  {
    var i, j :| 0 <= i < |init| && 0 <= j < |init| && !Blank(init[i]) && !Blank(init[j]) &&
      (|Indent(init[i])| == |m|
       || (|m| < |Indent(init[i])| && |m| < |Indent(init[j])| && Indent(init[i])[|m|] != Indent(init[j])[|m|]));
    assert init[i] == ls[i] && init[j] == ls[j];
  }

  /** Why the common prefix `c` of the margin so far `p` and the next indent
      `w` cannot be extended. */
  lemma MarginStep(init: seq<string>, ls: seq<string>, p: string, w: string, c: string)
    requires |ls| == |init| + 1 && init == ls[..|init|]
    requires !Blank(ls[|init|]) && w == Indent(ls[|init|])
    requires !(forall i :: 0 <= i < |init| ==> Blank(init[i]))
    requires CommonIndent(init, p) && Stops(init, p)
    requires c == CommonPrefix(p, w)
    ensures Stops(ls, c)
  {
    var n := |init|;
    assert forall i :: 0 <= i < n ==> init[i] == ls[i];
    if |c| == |w| {
      assert |Indent(ls[n])| == |c|;
    } else if |c| == |p| {
      StopsExtends(init, ls, p);
    } else {
      var k :| 0 <= k < n && !Blank(init[k]);
      assert p <= Indent(init[k]);
      assert Indent(ls[k])[|c|] == p[|c|] != w[|c|];
      assert !Blank(ls[k]) && !Blank(ls[n]);
    }
  }

  /** The margin is the LONGEST common indent: every common indent is a
      prefix of it. */
  lemma MarginIsLongest(ls: seq<string>, p: string)
    requires Margin(ls).Some?
    requires CommonIndent(ls, p)
    ensures p <= Margin(ls).val
  {
    var m := Margin(ls).val;
    var i, j :| 0 <= i < |ls| && 0 <= j < |ls| && !Blank(ls[i]) && !Blank(ls[j]) &&
      (|Indent(ls[i])| == |m|
       || (|m| < |Indent(ls[i])| && |m| < |Indent(ls[j])| && Indent(ls[i])[|m|] != Indent(ls[j])[|m|]));
    assert p <= Indent(ls[i]) && m <= Indent(ls[i]) && p <= Indent(ls[j]);
    assert |p| <= |m|;
  }

  /** One line of the result: a blank line becomes empty, and a line that
      starts with the margin loses it (the substitution of `'^' + margin`). */
  function DedentLine(line: string, m: string): (r: string)
    ensures Blank(line) ==> r == ""
    ensures !Blank(line) && m <= line ==> line == m + r
    ensures !Blank(line) && !(m <= line) ==> r == line
  {
    var l := if Blank(line) then "" else line;
    if m <= l then l[|m|..] else l
  }

  function DedentLines(ls: seq<string>, m: string): (out: seq<string>)
    ensures |out| == |ls|
    ensures forall i :: 0 <= i < |ls| ==> out[i] == DedentLine(ls[i], m)
  {
    seq(|ls|, i requires 0 <= i < |ls| => DedentLine(ls[i], m))
  }

  /** The margin as a string: empty when every line is blank. */
  function MarginOf(ls: seq<string>): string
  {
    match Margin(ls)
    case None => ""
    case Some(m) => m
  }

  /** `textwrap.dedent(text)`: it keeps the number of lines. */
  function TextwrapDedent(text: string): (r: string)
    ensures |Lines(r)| == |Lines(text)|
  {
    var ls := Lines(text);
    var out := DedentLines(ls, MarginOf(ls));
    DedentedLines(ls);
    LinesUnlines(out);
    Unlines(out)
  }

  /** `dedent(code)` for a string: without one leading newline, dedented.
      Only that newline's line is lost. */
  function Dedent(code: string): (r: string)
    ensures |code| > 0 && code[0] == '\n' ==> |Lines(r)| == |Lines(code)| - 1
    ensures !(|code| > 0 && code[0] == '\n') ==> |Lines(r)| == |Lines(code)|
  {
    var text := if |code| > 0 && code[0] == '\n' then code[1..] else code;
    LeadingNewlineLine(code);
    TextwrapDedent(text)
  }

  /** A leading newline ends an empty first line. */
  lemma LeadingNewlineLine(code: string)
    ensures |code| > 0 && code[0] == '\n' ==> Lines(code) == [""] + Lines(code[1..])
  {
    if |code| > 0 && code[0] == '\n' {
      assert code == "" + "\n" + code[1..];
      LinesOfJoin("", code[1..]);
    }
  }

  // ---------------------------------------------------------------------
  // Properties

  /** The margin is a prefix of every non-blank line. */
  lemma MarginPrefixesLines(ls: seq<string>, i: nat)
    requires i < |ls| && !Blank(ls[i])
    ensures MarginOf(ls) <= ls[i]
  {
    assert Margin(ls).Some?;
  }

  /** What a dedented line looks like: a line that was not blank keeps all
      its characters after the margin, so relative indentation survives. */
  lemma DedentedLine(line: string, m: string)
    requires !Blank(line) && m <= Indent(line)
    ensures line == m + DedentLine(line, m)
    ensures Indent(DedentLine(line, m)) == Indent(line)[|m|..]
    ensures !Blank(DedentLine(line, m))
    ensures '\n' !in line ==> '\n' !in DedentLine(line, m)
  {
    var out := line[|m|..];
    assert line == m + out;
    IndentOfSuffix(line, |m|);
    var w := Indent(line);
    assert |w| < |line| && !IsSpace(line[|w|]);
    assert !IsSpace(out[|w| - |m|]);
  }

  lemma {:induction false} IndentOfSuffix(line: string, k: nat)
    requires k <= |Indent(line)|
    ensures Indent(line[k..]) == Indent(line)[k..]
    decreases k
  {
    if k > 0 {
      assert line != [] && IsSpace(line[0]);
      assert line[1..][k - 1..] == line[k..];
      IndentOfSuffix(line[1..], k - 1);
    }
  }

  /** `textwrap.dedent` keeps the number of lines, empties the blank ones,
      and cuts exactly the margin from every other one. */
  lemma TextwrapDedentLines(text: string)
    ensures var ls := Lines(text);
            var out := Lines(TextwrapDedent(text));
            && |out| == |ls|
            && (forall i :: 0 <= i < |ls| && Blank(ls[i]) ==> out[i] == "")
            && (forall i :: 0 <= i < |ls| && !Blank(ls[i]) ==> ls[i] == MarginOf(ls) + out[i])
  {
    var ls := Lines(text);
    var m := MarginOf(ls);
    var out := DedentLines(ls, m);
    forall i | 0 <= i < |ls|
      ensures '\n' !in out[i]
      ensures !Blank(ls[i]) ==> ls[i] == m + out[i]
    {
      if !Blank(ls[i]) {
        assert Margin(ls).Some?;
        DedentedLine(ls[i], m);
      }
    }
    LinesUnlines(out);
  }

  /** After `textwrap.dedent` no indentation is common to all non-blank
      lines any more. */
  lemma NoMarginLeft(text: string)
    ensures MarginOf(Lines(TextwrapDedent(text))) == ""
  {
    var ls := Lines(text);
    var m := MarginOf(ls);
    var out := DedentLines(ls, m);
    DedentedLines(ls);
    LinesUnlines(out);
    if Margin(out).Some? {
      assert Margin(ls).Some? by {
        var k :| 0 <= k < |out| && !Blank(out[k]);
        assert !Blank(ls[k]);
      }
      NothingCommonLeft(ls, m, out, Margin(out).val);
    }
  }

  /** Line by line, what dedenting by the margin does. */
  lemma DedentedLines(ls: seq<string>)
    requires forall i :: 0 <= i < |ls| ==> '\n' !in ls[i]
    ensures var out := DedentLines(ls, MarginOf(ls));
            forall i :: 0 <= i < |ls| ==>
              && '\n' !in out[i]
              && (Blank(ls[i]) ==> out[i] == "")
              && (!Blank(ls[i]) ==> !Blank(out[i]) && Indent(ls[i]) == MarginOf(ls) + Indent(out[i]))
  {
    var m := MarginOf(ls);
    forall i | 0 <= i < |ls| && !Blank(ls[i])
      ensures !Blank(DedentLine(ls[i], m)) && '\n' !in DedentLine(ls[i], m)
      ensures Indent(ls[i]) == m + Indent(DedentLine(ls[i], m))
    {
      assert Margin(ls).Some?;
      DedentedLine(ls[i], m);
      assert Indent(ls[i]) == m + Indent(ls[i])[|m|..];
    }
  }

  /** Once the margin is cut, the lines that stopped it from growing share
      no first indentation character any more. */
  lemma NothingCommonLeft(ls: seq<string>, m: string, out: seq<string>, m2: string)
    requires Margin(ls) == Some(m) && |out| == |ls|
    requires forall i :: 0 <= i < |ls| && !Blank(ls[i]) ==>
               !Blank(out[i]) && Indent(ls[i]) == m + Indent(out[i])
    requires CommonIndent(out, m2)
    ensures m2 == ""
  {
    var i, j :| 0 <= i < |ls| && 0 <= j < |ls| && !Blank(ls[i]) && !Blank(ls[j]) &&
      (|Indent(ls[i])| == |m|
       || (|m| < |Indent(ls[i])| && |m| < |Indent(ls[j])| && Indent(ls[i])[|m|] != Indent(ls[j])[|m|]));
    assert m2 <= Indent(out[i]) && m2 <= Indent(out[j]);
    assert Indent(ls[i])[|m|..] == Indent(out[i]) && Indent(ls[j])[|m|..] == Indent(out[j]);
    assert |m2| == 0;
  }

  /** Dedenting what is already dedented changes nothing. */
  lemma TextwrapDedentIdempotent(text: string)
    ensures TextwrapDedent(TextwrapDedent(text)) == TextwrapDedent(text)
  {
    var r := TextwrapDedent(text);
    var out := Lines(r);
    NoMarginLeft(text);
    BlankLinesEmptied(text);
    DedentByNothing(out);
    UnlinesLines(r);
  }

  /** Every blank line of a dedented text is empty. */
  lemma BlankLinesEmptied(text: string)
    ensures var out := Lines(TextwrapDedent(text));
            forall i :: 0 <= i < |out| && Blank(out[i]) ==> out[i] == ""
  {
    var ls := Lines(text);
    var out := Lines(TextwrapDedent(text));
    TextwrapDedentLines(text);
    forall i | 0 <= i < |out| && Blank(out[i])
      ensures out[i] == ""
    {
      if !Blank(ls[i]) {
        assert false;
      }
    }
  }

  lemma DedentByNothing(ls: seq<string>)
    requires forall i :: 0 <= i < |ls| && Blank(ls[i]) ==> ls[i] == ""
    ensures DedentLines(ls, "") == ls
  {
    forall i | 0 <= i < |ls|
      ensures DedentLine(ls[i], "") == ls[i]
    {
      assert "" <= ls[i];
    }
  }

  /** Only one leading newline is dropped. This lemma and the next one only
      link `Dedent` to `TextwrapDedent`, whose lemmas carry the real
      contract; they are the two branches of `Dedent`. */
  lemma DedentDropsOneNewline(s: string)
    ensures Dedent("\n" + s) == TextwrapDedent(s)
  {
    assert ("\n" + s)[1..] == s;
  }

  /** A text that does not start with a newline is dedented as it is: the
      other branch of `Dedent`. */
  lemma DedentWithoutLeadingNewline(s: string)
    ensures s == [] || s[0] != '\n' ==> Dedent(s) == TextwrapDedent(s)
    ensures s != [] && s[0] == '\n' ==> Dedent(s) == TextwrapDedent(s[1..])
  {
  }

  /** A second leading newline survives as an empty first line. */
  lemma SecondNewlineStays(s: string)
    ensures Dedent("\n\n" + s)[0] == '\n'
  {
    assert "\n\n" + s == "\n" + ("\n" + s);
    DedentDropsOneNewline("\n" + s);
    EmptyFirstLineStays("\n" + s, s);
  }

  lemma EmptyFirstLineStays(t: string, s: string)
    requires t == "\n" + s
    ensures TextwrapDedent(t)[0] == '\n'
  {
    var ls := Lines(t);
    assert ls == [""] + Lines(s) by {
      assert t == "" + "\n" + s;
      LinesOfJoin("", s);
    }
    var out := DedentLines(ls, MarginOf(ls));
    assert out[0] == DedentLine(ls[0], MarginOf(ls)) == "";
    UnlinesEmptyFirst(out);
  }

  lemma UnlinesEmptyFirst(ls: seq<string>)
    requires |ls| >= 2 && ls[0] == ""
    ensures Unlines(ls)[0] == '\n'
  {
  }
}

=== FILE: dedent_doctests.dfy ===
/** The example in the docstring of `dedent`, proved of the model. */
module DedentDoctests {
  import opened Py
  import opened Text
  import opened Dedenting

  /** A run of spaces followed by a character that is not one is exactly
      the indent. */
  lemma {:induction false} IndentOfPadded(w: string, a: string)
    requires Spaces(w)
    requires a != [] && !IsSpace(a[0])
    ensures Indent(w + a) == w
    decreases |w|
  {
    if w != [] {
      assert (w + a)[1..] == w[1..] + a;
      IndentOfPadded(w[1..], a);
    } else {
      assert w + a == a;
    }
  }

  lemma {:induction false} CommonPrefixOfExtension(a: string, b: string)
    ensures CommonPrefix(a, a + b) == a
    decreases |a|
  {
    if a != [] {
      assert (a + b)[1..] == a[1..] + b;
      CommonPrefixOfExtension(a[1..], b);
    }
  }

  predicate Spaces(w: string)
  {
    forall i :: 0 <= i < |w| ==> IsSpace(w[i])
  }

  /** A code line: it holds no newline and starts with something that is not
      indentation. */
  predicate Code(a: string)
  {
    a != [] && !IsSpace(a[0]) && '\n' !in a
  }

  lemma ThreeLines(x: string, y: string)
    requires '\n' !in x && '\n' !in y
    ensures Lines(x + "\n" + (y + "\n" + "")) == [x, y, ""]
  {
    LinesOfLine("");
    LinesOfJoin(y, "");
    LinesOfJoin(x, y + "\n" + "");
  }

  lemma UnlinesThree(a: string, b: string)
    ensures Unlines([a, b, ""]) == a + "\n" + b + "\n"
  {
    assert [a, b, ""][1..] == [b, ""] && [b, ""][1..] == [""];
    assert Unlines([b, ""]) == b + "\n" + "" == b + "\n";
    assert Unlines([a, b, ""]) == a + "\n" + (b + "\n");
  }

  lemma NoNewlineInSpaces(w: string)
    requires Spaces(w)
    ensures '\n' !in w
  {
    assert forall i :: 0 <= i < |w| ==> w[i] != '\n';
  }

  lemma TwoLinesMargin(w: string, a: string, v: string, b: string)
    requires Spaces(w) && Spaces(v) && Code(a) && Code(b)
    ensures !Blank(w + a) && !Blank(w + (v + b))
    ensures Margin([w + a, w + (v + b), ""]) == Some(w)
  {
    var x, y := w + a, w + (v + b);
    var ls := [x, y, ""];
    IndentOfPadded(w, a);
    IndentOfPadded(w + v, b);
    assert y == (w + v) + b;
    assert !Blank(x) by { assert !IsSpace(x[|w|]); }
    assert !Blank(y) by { assert !IsSpace(y[|w| + |v|]); }
    assert ls[..2] == [x, y] && [x, y][..1] == [x] && [x][..0] == [];
    CommonPrefixOfExtension(w, v);
    assert Margin([x]) == Some(w);
    assert Indent(y) == w + v;
    assert Margin([x, y]) == Some(CommonPrefix(w, w + v)) == Some(w);
    assert Blank("");
  }

  /** Two code lines sharing the indentation `w`, the second indented by
      `v` more, after a leading newline and followed by a trailing one: `w`
      goes, `v` stays, and so do the newlines between and after the lines. */
  lemma TwoLines(w: string, a: string, v: string, b: string)
    requires Spaces(w) && Spaces(v) && Code(a) && Code(b)
    ensures Dedent("\n" + w + a + "\n" + w + v + b + "\n") == a + "\n" + v + b + "\n"
  {
    var x, y := w + a, w + (v + b);
    var text := x + "\n" + (y + "\n" + "");
    Regroup(w, a, v, b);
    DedentDropsOneNewline(text);
    TwoLinesText(w, a, v, b);
  }

  lemma Regroup(w: string, a: string, v: string, b: string)
    ensures "\n" + w + a + "\n" + w + v + b + "\n" == "\n" + ((w + a) + "\n" + ((w + (v + b)) + "\n" + ""))
    ensures a + "\n" + (v + b) + "\n" == a + "\n" + v + b + "\n"
  {
  }

  lemma TwoLinesText(w: string, a: string, v: string, b: string)
    requires Spaces(w) && Spaces(v) && Code(a) && Code(b)
    ensures TextwrapDedent((w + a) + "\n" + ((w + (v + b)) + "\n" + "")) == a + "\n" + (v + b) + "\n"
  {
    var x, y := w + a, w + (v + b);
    var text := x + "\n" + (y + "\n" + "");
    NoNewlineInSpaces(w);
    NoNewlineInSpaces(v);
    ThreeLines(x, y);
    TwoLinesMargin(w, a, v, b);
    CutTwoLines(w, a, v, b);
    UnlinesThree(a, v + b);
  }

  lemma CutTwoLines(w: string, a: string, v: string, b: string)
    requires !Blank(w + a) && !Blank(w + (v + b))
    ensures DedentLines([w + a, w + (v + b), ""], w) == [a, v + b, ""]
  {
    assert (w + a)[|w|..] == a && (w + (v + b))[|w|..] == v + b;
  }

  /** `dedent(a)` of the docstring, with `a` spelled out piece by piece:
      the eight spaces common to both code lines go, the four extra spaces
      of the loop body stay. */
  lemma DedentExample()
    ensures Dedent("\n" + "        " + "for i in range(10):" + "\n" + "        " + "    " + "print i" + "\n")
         == "for i in range(10):" + "\n" + "    " + "print i" + "\n"
  {
    TwoLines("        ", "for i in range(10):", "    ", "print i");
  }
}

=== FILE: dict.dfy ===
/** `temp_key(d, key, value)`: a context manager that sets `d[key] = value`
    for the duration of a `with` block and afterwards restores the old value,
    or deletes the key when it was absent on entry. The dict is a `map`. */
module TempKey {
  import opened Py

  /** What `temp_key` remembers on entry: the pair `(key_existed,
      previous_value)`, whose only reachable states are these two. */
  datatype Saved<V> = Existed(previous: V) | Absent

  /** The code before `yield`: remember the slot, then overwrite it. */
  function Enter<K(!new), V>(d: map<K, V>, key: K, value: V): (r: (Saved<V>, map<K, V>))
    ensures r.0.Existed? <==> key in d
    ensures r.0.Existed? ==> r.0.previous == d[key]
    ensures Lookup(r.1, key) == Some(value)
    ensures forall k :: k != key ==> Lookup(r.1, k) == Lookup(d, k)
  {
    var saved := if key in d then Existed(d[key]) else Absent;
    (saved, d[key := value])
  }

  /** The `finally` clause, run on whatever dict the block left: put the old
      value back, or `del d[key]`, which raises `KeyError` when the block has
      already removed the key. */
  function Exit<K(!new), V>(saved: Saved<V>, key: K, d: map<K, V>): (r: Step<map<K, V>, ()>)
    ensures saved.Existed? ==> r.outcome.Return? && Lookup(r.state, key) == Some(saved.previous)
    ensures saved.Absent? ==> key !in r.state
    ensures saved.Absent? ==> (r.outcome.Return? <==> key in d)
    ensures r.outcome.Raise? ==> r.outcome.exc == KeyError && r.state == d
    ensures forall k :: k != key ==> Lookup(r.state, k) == Lookup(d, k)
  {
    match saved
    case Existed(previous) => Step(d[key := previous], Return(()))
    case Absent =>
      if key in d then Step(d - {key}, Return(())) else Step(d, Raise(KeyError))
  }

  /** `with temp_key(d, key, value): <body>`. The body may change any entry
      and may raise; the restoration runs in every case. */
  function Run<K(!new), V, R>(d: map<K, V>, key: K, value: V, body: map<K, V> -> Step<map<K, V>, R>)
    : (r: Trace<map<K, V>, R>)
    ensures Lookup(r.inside, key) == Some(value)
    ensures forall k :: k != key ==> Lookup(r.inside, k) == Lookup(d, k)
    ensures key in d ==> Lookup(r.after, key) == Lookup(d, key)
    ensures key !in d ==> key !in r.after
    ensures forall k :: k != key ==> Lookup(r.after, k) == Lookup(body(r.inside).state, k)
    ensures key in d || key in body(r.inside).state ==> r.outcome == body(r.inside).outcome
    ensures key !in d && key !in body(r.inside).state ==> r.outcome == Raise(KeyError)
  {
    var (saved, inside) := Enter(d, key, value);
    var b := Finally(body(inside), s => Exit(saved, key, s));
    Trace(inside, b.state, b.outcome)
  }

  /** Leaving straight after entering gives back exactly the dict of entry,
      whether or not the key was there. */
  lemma EnterExitRoundTrip<K(!new), V>(d: map<K, V>, key: K, value: V)
    ensures Exit(Enter(d, key, value).0, key, Enter(d, key, value).1) == Step(d, Return(()))
  {
    if key in d {
      assert d[key := value][key := d[key]] == d;
    } else {
      assert d[key := value] - {key} == d;
    }
  }

  /** A block that leaves the dict as it found it sees nothing of `temp_key`
      afterwards: the dict after the statement is the dict before it, and the
      block's outcome, returned value or exception, goes through. */
  lemma RunIsInvisible<K(!new), V, R>(d: map<K, V>, key: K, value: V, body: map<K, V> -> Step<map<K, V>, R>)
    requires forall s :: body(s).state == s
    ensures Run(d, key, value, body).after == d
    ensures Run(d, key, value, body).outcome == body(d[key := value]).outcome
  {
    var r := Run(d, key, value, body);
    assert r.inside == d[key := value] by {
      assert forall k :: Lookup(r.inside, k) == Lookup(d[key := value], k);
      assert forall k :: k in r.inside <==> Lookup(r.inside, k).Some?;
    }
    assert forall k :: Lookup(r.after, k) == Lookup(d, k);
    assert forall k :: k in r.after <==> Lookup(r.after, k).Some?;
    assert forall k :: k in d <==> Lookup(d, k).Some?;
  }
}

=== FILE: object.dfy ===
/** `TemporaryAttributeReplacer(obj, attribute, value)` and its factory
    `temp_attr`: replace one attribute of an object for the duration of a
    `with` block, or of every call of a decorated function. An object's
    attributes are a map from names to values; the object's state is threaded
    through `Enter`, `Exit` and the block instead of being held by reference. */
module Attributes {
  import opened Py

  type Object<V> = map<string, V>

  /** The replacer's own fields: the attribute's name, the replacement value,
      and `temp`, the value read at the last `__enter__` (`None` before any).
      The source also sets a field `existed`, which nothing reads. */
  datatype Replacer<V> = Replacer(attribute: string, value: V, temp: Option<V>)

  /** `temp_attr(obj, field_name, value)`, i.e. the constructor: nothing saved
      yet. */
  function TempAttr<V>(attribute: string, value: V): (r: Replacer<V>)
    ensures r.attribute == attribute && r.value == value
    ensures r.temp == None
  {
    Replacer(attribute, value, None)
  }

  /** `__enter__`: `getattr` without a default, so an object lacking the
      attribute raises `AttributeError` before anything is written; otherwise
      save the old value, write the replacement and return it. */
  function Enter<V>(rep: Replacer<V>, obj: Object<V>): (r: Step<(Replacer<V>, Object<V>), V>)
    ensures rep.attribute !in obj ==> r == Step((rep, obj), Raise(AttributeError))
    ensures rep.attribute in obj ==> r.outcome == Return(rep.value)
    ensures rep.attribute in obj ==> r.state.0 == rep.(temp := Some(obj[rep.attribute]))
    ensures rep.attribute in obj ==> Lookup(r.state.1, rep.attribute) == Some(rep.value)
    ensures forall a :: a != rep.attribute ==> Lookup(r.state.1, a) == Lookup(obj, a)
  {
    if rep.attribute !in obj then Step((rep, obj), Raise(AttributeError))
    else
      var saved := rep.(temp := Some(obj[rep.attribute]));
      Step((saved, obj[rep.attribute := rep.value]), Return(rep.value))
  }

  /** `__exit__`: write back the value saved at entry, whatever the block did
      to the attribute (even if it deleted it). */
  function Exit<V>(rep: Replacer<V>, obj: Object<V>): (r: Object<V>)
    requires rep.temp.Some?
    ensures Lookup(r, rep.attribute) == rep.temp
    ensures forall a :: a != rep.attribute ==> Lookup(r, a) == Lookup(obj, a)
  {
    obj[rep.attribute := rep.temp.val]
  }

  /** `with rep: <body>`. When the enter fails the body does not run and the
      object is unchanged; otherwise the body runs with the attribute replaced
      and the attribute is put back on every way out of the block. */
  function Run<V, R>(rep: Replacer<V>, obj: Object<V>, body: Object<V> -> Step<Object<V>, R>)
    : (r: Trace<Object<V>, R>)
    ensures rep.attribute !in obj ==> r.after == obj && r.outcome == Raise(AttributeError)
    ensures rep.attribute in obj ==> Lookup(r.inside, rep.attribute) == Some(rep.value)
    ensures forall a :: a != rep.attribute ==> Lookup(r.inside, a) == Lookup(obj, a)
    ensures rep.attribute in obj ==> Lookup(r.after, rep.attribute) == Lookup(obj, rep.attribute)
    ensures rep.attribute in obj ==>
              r.outcome == body(r.inside).outcome
              && forall a :: a != rep.attribute ==> Lookup(r.after, a) == Lookup(body(r.inside).state, a)
  {
    var e := Enter(rep, obj);
    match e.outcome
    case Raise(x) => Trace(obj, obj, Raise(x))
    case Return(_) =>
      var (saved, inside) := e.state;
      var b := Finally(body(inside), s => Step(Exit(saved, s), Return(())));
      Trace(inside, b.state, b.outcome)
  }

  /** `rep(f)`: the decorated function `g`, which calls `f` inside
      `with rep:` and returns what `f` returns. `f` takes the object's state
      and its own argument. */
  function Decorate<V(!new), A(!new), R>(rep: Replacer<V>, f: (Object<V>, A) -> Step<Object<V>, R>)
    : (g: (Object<V>, A) -> Step<Object<V>, R>)
    ensures forall obj, arg :: rep.attribute !in obj ==> g(obj, arg) == Step(obj, Raise(AttributeError))
    ensures forall obj, arg :: rep.attribute in obj ==>
              && g(obj, arg).outcome == f(obj[rep.attribute := rep.value], arg).outcome
              && Lookup(g(obj, arg).state, rep.attribute) == Lookup(obj, rep.attribute)
  {
    (obj: Object<V>, arg: A) =>
      var t := Run(rep, obj, (s: Object<V>) => f(s, arg));
      Step(t.after, t.outcome)
  }

  /** A call of the decorated function: `f` runs on the object with the
      attribute replaced, its result or exception is the call's, and after the
      call the attribute holds its original value again. */
  lemma DecoratedCall<V(!new), A(!new), R>(rep: Replacer<V>, f: (Object<V>, A) -> Step<Object<V>, R>,
                               obj: Object<V>, arg: A)
    requires rep.attribute in obj
    ensures var g := Decorate(rep, f);
            && g(obj, arg).outcome == f(obj[rep.attribute := rep.value], arg).outcome
            && Lookup(g(obj, arg).state, rep.attribute) == Lookup(obj, rep.attribute)
            && forall a :: a != rep.attribute ==>
                 Lookup(g(obj, arg).state, a) == Lookup(f(obj[rep.attribute := rep.value], arg).state, a)
  {
    var t := Run(rep, obj, (s: Object<V>) => f(s, arg));
    assert t.inside == obj[rep.attribute := rep.value] by {
      assert forall a :: Lookup(t.inside, a) == Lookup(obj[rep.attribute := rep.value], a);
      assert forall a :: a in t.inside <==> Lookup(t.inside, a).Some?;
    }
  }

  /** A block that leaves the object alone finds it, afterwards, exactly as
      it was before the statement. */
  lemma RunIsInvisible<V, R>(rep: Replacer<V>, obj: Object<V>, body: Object<V> -> Step<Object<V>, R>)
    requires forall s :: body(s).state == s
    ensures Run(rep, obj, body).after == obj
  {
    var r := Run(rep, obj, body);
    if rep.attribute in obj {
      assert r.after == obj[rep.attribute := rep.value][rep.attribute := obj[rep.attribute]];
    }
  }

  /** The replacer has one slot for the saved value: entering the same
      replacer twice before leaving it saves the replacement itself, so after
      both exits the attribute still holds the replacement. */
  lemma ReenteringLosesOriginal<V>(rep: Replacer<V>, obj: Object<V>)
    requires rep.attribute in obj
    ensures var e1 := Enter(rep, obj).state;
            var e2 := Enter(e1.0, e1.1).state;
            Lookup(Exit(e2.0, Exit(e2.0, e2.1)), rep.attribute) == Some(rep.value)
  {
  }
}

=== FILE: py.dfy ===
/** Python-level vocabulary shared by every model in this project: optional
    values, the exceptions the modelled code raises, and how a block of code
    completes. Mutation of a Python object is modelled by threading its state
    through pure functions, so a block of code is a function from the state it
    starts in to a `Step`. */
module Py {

  /** A present value, or Python's `None`; `None` also marks a key missing
      from a dict. */
  datatype Option<+T> = Some(val: T) | None

  /** The exceptions the modelled code can raise. `Raised` stands for any
      exception raised by a caller's own block of code. */
  datatype Exc =
    | KeyError
    | AttributeError
    | RecursionError
    | AdoptException(args: seq<string>)
    | Raised(name: string)

  /** How a block of code completed: by returning a value or by raising. */
  datatype Outcome<+R> = Return(value: R) | Raise(exc: Exc)

  /** The state a block of code leaves behind, and how it completed. */
  datatype Step<S, R> = Step(state: S, outcome: Outcome<R>)

  /** A `with` statement seen from outside: the state its body ran against,
      the state after `__exit__`, and how the whole statement completed. */
  datatype Trace<S, R> = Trace(inside: S, after: S, outcome: Outcome<R>)

  /** `m.get(k)`: what `m` holds under `k`, or `None` for a missing key. */
  function Lookup<K, V>(m: map<K, V>, k: K): (r: Option<V>)
    ensures r.None? <==> k !in m
    ensures k in m ==> r.val == m[k]
  {
    if k !in m then None else Some(m[k])
  }

  /** `try: <body> finally: <cleanup>`. The cleanup runs on the state the body
      left, whether the body returned or raised; an exception raised by the
      cleanup replaces the body's outcome, otherwise the body's outcome
      (returned value or exception) goes through unchanged. */
  function Finally<S, R>(body: Step<S, R>, cleanup: S -> Step<S, ()>): (r: Step<S, R>)
    ensures r.state == cleanup(body.state).state
    ensures cleanup(body.state).outcome.Return? ==> r.outcome == body.outcome
    ensures cleanup(body.state).outcome.Raise? ==> r.outcome == Raise(cleanup(body.state).outcome.exc)
  {
    var c := cleanup(body.state);
    match c.outcome
    case Raise(e) => Step(c.state, Raise(e))
    case Return(_) => Step(c.state, body.outcome)
  }
}

=== FILE: text.dfy ===
/** Lines of a string: `s.split('\n')` and `'\n'.join(lines)`, and the fact
    that each undoes the other. */
module Text {

  /** `s.split('\n')`: the pieces between newlines, so never empty, and no
      piece holds a newline. */
  function Lines(s: string): (ls: seq<string>)
    ensures |ls| >= 1
    ensures forall i :: 0 <= i < |ls| ==> '\n' !in ls[i]
    decreases |s|
  {
    if s == [] then [""]
    else
      var rest := Lines(s[1..]);
      if s[0] == '\n' then [""] + rest
      else [[s[0]] + rest[0]] + rest[1..]
  }

  /** `'\n'.join(ls)`: the first line comes first, and a newline right
      after it when more lines follow. */
  function Unlines(ls: seq<string>): (r: string)
    requires |ls| >= 1
    ensures ls[0] <= r
    ensures |ls| == 1 <==> r == ls[0]
    ensures |ls| > 1 ==> |ls[0]| < |r| && r[|ls[0]|] == '\n'
  {
    if |ls| == 1 then ls[0] else ls[0] + "\n" + Unlines(ls[1..])
  }

  /** Joining the pieces gives back the string. */
  lemma {:induction false} UnlinesLines(s: string)
    ensures Unlines(Lines(s)) == s
    decreases |s|
  {
    if s != [] {
      UnlinesLines(s[1..]);
      var rest := Lines(s[1..]);
      if s[0] == '\n' {
        assert ([""] + rest)[1..] == rest;
        assert s == [s[0]] + s[1..];
      } else if |rest| == 1 {
        assert s == [s[0]] + s[1..];
      } else {
        var ls := [[s[0]] + rest[0]] + rest[1..];
        assert ls[1..] == rest[1..];
        assert s == [s[0]] + s[1..];
      }
    }
  }

  lemma {:induction false} LinesOfLine(a: string)
    requires '\n' !in a
    ensures Lines(a) == [a]
    decreases |a|
  {
    if a != [] {
      assert '\n' !in a[1..] by {
        assert forall k :: 0 <= k < |a[1..]| ==> a[1..][k] == a[k + 1];
      }
      LinesOfLine(a[1..]);
      assert a == [a[0]] + a[1..];
    }
  }

  lemma {:induction false} LinesOfJoin(a: string, b: string)
    requires '\n' !in a
    ensures Lines(a + "\n" + b) == [a] + Lines(b)
    decreases |a|
  {
    var s := a + "\n" + b;
    if a == [] {
      assert s == "\n" + b && s[1..] == b;
    } else {
      assert s[1..] == a[1..] + "\n" + b;
      assert '\n' !in a[1..] by {
        assert forall k :: 0 <= k < |a[1..]| ==> a[1..][k] == a[k + 1];
      }
      LinesOfJoin(a[1..], b);
      assert [s[0]] + a[1..] == a;
    }
  }

  /** Splitting the joined lines gives back the lines, when none holds a
      newline. */
  lemma {:induction false} LinesUnlines(ls: seq<string>)
    requires |ls| >= 1
    requires forall i :: 0 <= i < |ls| ==> '\n' !in ls[i]
    ensures Lines(Unlines(ls)) == ls
  {
    if |ls| == 1 {
      LinesOfLine(ls[0]);
    } else {
      LinesUnlines(ls[1..]);
      LinesOfJoin(ls[0], Unlines(ls[1..]));
      assert ls == [ls[0]] + ls[1..];
    }
  }
}

=== FILE: toggle.dfy ===
/** `Toggle`: a flag that can be switched on and off directly, or switched on
    for the duration of a `with` block. It has a single slot, `_previous`, for
    the value to go back to. */
module Toggles {
  import opened Py

  /** The two fields of a toggle; `previous` is `None` until the first
      `__enter__`. */
  datatype Toggle = Toggle(enabled: bool, previous: Option<bool>)

  /** Python's truth value of `_previous`: both `None` and `False` are false. */
  predicate Truthy(p: Option<bool>)
  {
    p == Some(true)
  }

  /** `Toggle()`. */
  function New(): (t: Toggle)
    ensures !t.enabled
    ensures t.previous == None
  {
    Toggle(false, None)
  }

  /** `enable()`: switched on, the saved slot untouched. */
  function Enable(t: Toggle): (r: Toggle)
    ensures r.enabled
    ensures r.previous == t.previous
  {
    t.(enabled := true)
  }

  /** `disable()`: switched off, the saved slot untouched. */
  function Disable(t: Toggle): (r: Toggle)
    ensures !r.enabled
    ensures r.previous == t.previous
  {
    t.(enabled := false)
  }

  /** `__enter__`: save the current value, then switch on. */
  function Enter(t: Toggle): (r: Toggle)
    ensures r.enabled
    ensures r.previous == Some(t.enabled)
  {
    Enable(t.(previous := Some(t.enabled)))
  }

  /** `__exit__`: switch off unless the saved value is true. The exception
      information it receives is ignored, and it never suppresses. */
  function Exit(t: Toggle): (r: Toggle)
    ensures r.previous == t.previous
    ensures Truthy(t.previous) ==> r == t
    ensures !Truthy(t.previous) ==> !r.enabled
  {
    if !Truthy(t.previous) then Disable(t) else t
  }

  /** `with toggle: <body>`. The body gets the toggle itself and may switch
      it, or enter it again. */
  function Run<R>(t: Toggle, body: Toggle -> Step<Toggle, R>): (r: Trace<Toggle, R>)
    ensures r.inside.enabled && r.inside.previous == Some(t.enabled)
    ensures r.outcome == body(r.inside).outcome
    ensures r.after == Exit(body(r.inside).state)
  {
    var inside := Enter(t);
    var b := Finally(body(inside), s => Step(Exit(s), Return(())));
    Trace(inside, b.state, b.outcome)
  }

  /** `enable` and `disable` are idempotent. */
  lemma SwitchingIsIdempotent(t: Toggle)
    ensures Enable(Enable(t)) == Enable(t)
    ensures Disable(Disable(t)) == Disable(t)
  {
  }

  /** `__exit__` never switches a toggle on. */
  lemma ExitNeverEnables(t: Toggle)
    ensures Exit(t).enabled ==> t.enabled
  {
  }

  /** Entering and leaving at once brings `enabled` back to its value before
      entering, from either state. */
  lemma EnterExitRestores(t: Toggle)
    ensures Exit(Enter(t)).enabled == t.enabled
  {
  }

  /** A body that leaves the toggle alone: after the statement the toggle is
      as enabled as it was before, whatever the body's outcome. */
  lemma RunRestores<R>(t: Toggle, body: Toggle -> Step<Toggle, R>)
    requires forall s :: body(s).state == s
    ensures Run(t, body).after.enabled == t.enabled
  {
  }

  /** There is one saved slot: a second `__enter__` before the first
      `__exit__` overwrites it with `true`, so nested scopes leave the toggle
      enabled whatever it was before, and a fresh toggle is not restored. */
  lemma NestedScopesLeaveEnabled(t: Toggle)
    ensures Exit(Exit(Enter(Enter(t)))).enabled
    ensures Exit(Exit(Enter(Enter(New())))) != New()
  {
  }
}
